=== FILE: README.md ===
# Stark-folio content and interaction logic in Dafny

The portfolio app is a single-page React site. It has a 3D armour scene, a content overlay with a project
carousel and a typewriter title, a chat assistant ("J.A.R.V.I.S."), and a password-gated admin panel.
The admin panel edits the project and skill lists that the rest of the site shows. This project models
the sequential state logic under those screens:

- **Content service** (`DataService`, `Storage`, `Defaults`, `Digest`). Project and skill lists live in
  `localStorage` under two keys. Reads fall back to the built-in defaults. Every write announces
  itself with a `dataUpdated` event. `getPortfolioContext` builds a plain-text digest of the content
  for the chat model.
- **CV service** (`CvService`). One uploaded CV is kept in an IndexedDB store under the key
  `current`. A version counter is kept under `cv_version`.
- **Audio service** (`Audio`). One global mute flag gates speech and the four synthesised sound
  effects. Speech picks a preferred male English voice.
- **Admin panel** (`AdminPanel`). Upsert and guarded delete of projects; replace-or-append and
  delete of skills; the comma-separated tech field; and the handlers that persist each edit.
- **Content overlay** (`ContentOverlay`). The wrapping carousel index, the three-wide window of
  visible projects, and the typing/pausing/deleting role-title state machine.
- **Chat widget** (`JarvisWidget`). The message log, the loading guard, the open/close toggle with
  its spoken greeting, and the rule that links a chat message to a project by title.

Browser facilities become plain data. `localStorage` and the IndexedDB store are maps. Window
events are an append-only list of event names. The speech engine and WebAudio are one append-only
log of `Cancel`, `Utter` and `Effect` events. `window.confirm` answers, the clock reading behind
`Date.now()`, and the language model's reply are parameters. JSON is an abstract encoder/decoder
pair (`Storage.EncodeProjects`/`DecodeProjects`) with `decode(encode(x)) == Some(x)`.

The chat widget sends each message to the language-model service, logs its reply, and then links
the first project whose title matches the message. The service's reply is a parameter here. The
project list the widget matches against is the one `getProjects` returns once the reply has
arrived; the widget model takes that list as a parameter, and `DataService.GetProjects` models the
read itself. The service never rejects: it turns every error into a reply text. So the widget's
error branch can only be reached after the reply has been logged, and the model's error case logs
the reply first.

JavaScript details are modelled where the behaviour depends on them:

- `substring` clamps both bounds and swaps them when out of order.
- `split(',')` always yields one more piece than there are commas.
- `trim` strips the JavaScript white-space characters listed in `Text.IsSpace`.
- An empty string is falsy, so a stored `""` reads as "nothing stored".
- A stored `"0"` is truthy.
- `parseInt` of a non-numeral gives NaN (`Storage.Num`).
- A missing `longDescription` renders as `undefined` in the context text.
- An array assignment past the end leaves holes, which `JSON.stringify` writes as `null`.

## Model

| member | source | states |
|---|---|---|
| Defaults.DefaultProjectsShape | constants.ts:20-48 | The built-in project list holds exactly three projects with distinct ids, the minimum the admin delete guard protects. |
| Storage.EncodeProjects | services/dataService.ts:13-20 | Whatever project list is written can be decoded back to exactly that list, and the written text is never the empty (falsy) string. |
| Storage.EncodeSkills | services/dataService.ts:30-37 | Whatever skill list is written decodes back to exactly that list, and the text is never empty. |
| Storage.NumText | services/cvService.ts:58-64 | Writing a number as text and parsing it again gives the same number, NaN included; the text is never empty (exact only for integers JavaScript holds exactly; see Left out). |
| DataService.GetProjects | services/dataService.ts:8-17 | The projects read are the stored list when a non-empty, decodable value is stored, and the default projects when nothing, the empty string or undecodable text is stored. |
| DataService.SaveProjects | services/dataService.ts:19-22 | After saving, the projects read are exactly the saved list; every other key (the skills key included) and the CV store are untouched; exactly one `dataUpdated` event is appended. |
| DataService.GetSkills | services/dataService.ts:25-34 | The skills read are the stored list when one is usable, and the default skills otherwise. |
| DataService.SaveSkills | services/dataService.ts:36-39 | After saving, the skills read are exactly the saved list; the projects key and every other key are untouched; exactly one `dataUpdated` event is appended. |
| DataService.ResetData | services/dataService.ts:42-46 | After a reset both getters return the defaults; keys other than the two content keys are untouched; exactly one `dataUpdated` event is appended. |
| DataService.SavesAreIndependent | services/dataService.ts:19-39 | Saving projects does not change the skills a reader sees, and saving skills does not change the projects. |
| DataService.LastSaveWins | services/dataService.ts:19-22 | Two saves in a row: the reader sees the second list, and two events were announced. |
| Digest.NatToString | services/dataService.ts:53 | A level renders as at least one character, all of them decimal digits. |
| Digest.IntToString | services/dataService.ts:53 | A level never renders with a line break. |
| Digest.ProjectLines | services/dataService.ts:52 | The project block has one line per project, and line i describes project i. |
| Digest.SkillLines | services/dataService.ts:53 | The skill block has one line per skill, and line i describes skill i. |
| Digest.SkillLineSingle | services/dataService.ts:53 | A skill's line is free of line breaks exactly when the skill's name is. |
| Digest.JoinLineCount | services/dataService.ts:52-53 | A newline-joined block of line-break-free lines holds one newline fewer than it has lines, and none when it is empty. |
| Digest.BlockLines | services/dataService.ts:52-53 | Splitting a newline-joined block of line-break-free lines gives back exactly those lines, in order, for a non-empty block; an empty block reads back as one empty line. |
| Digest.ContextBlocks | services/dataService.ts:48-64 | In the context text, splitting each block on newlines gives one line per skill and one line per project, in list order, for non-empty lists when no shown field holds a line break; an empty list (deleting every skill reaches one) leaves its block as one empty line. |
| Digest.HeadingNewlines | services/dataService.ts:55-63 | The fixed template around the blocks holds four line breaks before the skills, three between the blocks and one after the projects. |
| Digest.ContextText | services/dataService.ts:48-64 | The digest always has at least nine lines; when no shown field holds a line break it has seven fixed lines plus one per skill and one per project, an empty list still taking one line. |
| DataService.PortfolioContext | services/dataService.ts:48-64 | The digest of what the getters return always has at least nine lines; its block shape is the one `Digest.ContextText` and `Digest.ContextBlocks` state. |
| DataService.ContextFollowsStore | services/dataService.ts:19-64 | The digest follows the store: after saving projects or skills it shows the saved list beside the other list as stored, and after a reset it shows the defaults. |
| Digest.MultiLineDescriptionSplitsBlock | services/dataService.ts:52 | A long description holding a line break makes that project's entry two lines, so one-line-per-project fails for such content. |
| CvService.SaveCV | services/cvService.ts:20-28 | After saving, reading the CV gives back the saved file with its name and type; `localStorage`, the event log and the values under the other store keys are untouched, and the only key it can add is 'current'. |
| CvService.GetCV | services/cvService.ts:30-43 | A CV is returned exactly when one is stored under 'current', with the stored file, name and type; the upload time is not returned. |
| CvService.DeleteCV | services/cvService.ts:46-55 | After deleting, reading the CV gives nothing (`null`). |
| CvService.SecondSaveOverwrites | services/cvService.ts:25 | The store keeps a single slot: after two saves only the second file is read back. |
| CvService.GetCVVersion | services/cvService.ts:57-60 | The version is 1 when nothing or the empty string is stored; otherwise it is what `parseInt` makes of the stored text; a stored 0 reads as 0, not 1. |
| CvService.Succ | services/cvService.ts:64 | Adding one to an integer version gives the next integer; NaN stays NaN (below 2^53; see Left out). |
| CvService.BumpCVVersion | services/cvService.ts:62-66 | The returned version is one more than the version read before (below 2^53; see Left out); a following read returns that same value; other keys and the CV store are untouched. |
| CvService.SetCVVersion | services/cvService.ts:68-70 | After setting n, the version read is exactly n (for the integers JavaScript writes out in plain digits and holds exactly; see Left out); other keys are untouched. |
| CvService.BumpCountsOn | services/cvService.ts:57-70 | On a fresh browser the first bump yields 2; after setting n, bumps yield n + 1 and then n + 2. |
| Audio.PendingAppend | services/audioService.ts:19-46 | A cancel empties the pending speech, an utterance is queued after what is pending, and a sound effect leaves speech alone. |
| Audio.StopSpeaking | services/audioService.ts:19-21 | With a speech engine, nothing is left pending afterwards; without one, nothing changes; nothing new is ever spoken. |
| Audio.SetMute | services/audioService.ts:5-10 | The flag takes the given value; muting leaves no speech pending; unmuting leaves the event log untouched. |
| Audio.ToggleMute | services/audioService.ts:12-15 | The flag flips, and the value returned is the new flag. |
| Audio.IsSystemMuted | services/audioService.ts:17 | While the query reports muted, speaking and every sound effect change nothing; while it reports unmuted, speaking with an engine leaves exactly one utterance pending. |
| Audio.MuteQueries | services/audioService.ts:5-17 | The mute query reports what the last `setMute` set or `toggleMute` returned, and two toggles restore the original flag. |
| Audio.PreferredIndex | services/audioService.ts:34-39 | The position chosen is the first voice whose name contains one of the three preferred names; none is chosen when no voice qualifies. |
| Audio.PreferredVoice | services/audioService.ts:34-43 | The voice installed is a preferred voice from the list, and the default is left in place exactly when no voice qualifies. |
| Audio.PreferredIsDanielOrMale | services/audioService.ts:35-39 | The "Google UK English Male" test adds nothing: a voice qualifies exactly when its name contains "Daniel" or "Male". |
| Audio.Speak | services/audioService.ts:23-46 | While muted or without an engine nothing happens. Otherwise earlier speech is cancelled first and exactly one utterance of the text is left pending, using the preferred voice; the text is added to what was spoken. |
| Audio.PlaySound | services/audioService.ts:59-161 | Each sound effect is a no-op while muted or without WebAudio, otherwise exactly one effect is started; effects never change pending or spoken speech. |
| Audio.OperationsKeepOnePending | services/audioService.ts:5-46 | Every operation of the service keeps at most one utterance pending. |
| AdminPanel.UpsertProject | components/AdminPanel.tsx:61-67 | With an existing id the entry is replaced in place: same length, entries with other ids untouched. With a new id the project is appended after the unchanged list. |
| AdminPanel.UpsertKeepsIdsUnique | components/AdminPanel.tsx:63-66 | Upserting keeps ids unique, never shortens the list, and is idempotent. |
| AdminPanel.CountId | components/AdminPanel.tsx:79 | The number of projects with an id is zero exactly when no project has it. |
| AdminPanel.UniqueCountAtMostOne | components/AdminPanel.tsx:79 | With unique ids at most one project has any given id. |
| AdminPanel.RemoveProject | components/AdminPanel.tsx:79 | The filtered list is shorter by exactly the number of projects carrying the id. |
| AdminPanel.RemoveProjectMembers | components/AdminPanel.tsx:79 | The projects kept are exactly the original projects with a different id; none with the id survives. |
| AdminPanel.RemoveProjectKeepsOrder | components/AdminPanel.tsx:79 | Filtering distributes over concatenation, so survivors keep their original relative order. |
| AdminPanel.RemoveFront | components/AdminPanel.tsx:79 | Filtering a concatenation with a non-empty front first decides the front's head, then filters the rest. |
| AdminPanel.UniqueCons | components/AdminPanel.tsx:79 | Putting a project with a fresh id in front of a list with unique ids keeps them unique. |
| AdminPanel.UniqueTail | components/AdminPanel.tsx:79 | The tail of a list with unique ids has unique ids, none equal to the head's. |
| AdminPanel.RemoveProjectKeepsIdsUnique | components/AdminPanel.tsx:79 | Deleting keeps ids unique. |
| AdminPanel.PermittedDeleteKeepsMinimum | components/AdminPanel.tsx:73-83 | With unique ids, a delete the guard lets through (more than three projects) leaves at least three. |
| AdminPanel.DuplicateIdsDefeatGuard | components/AdminPanel.tsx:74-79 | Without unique ids the guard does not protect the minimum: four projects sharing an id all go at once. |
| AdminPanel.CommitSkill | components/AdminPanel.tsx:110-115 | (Corrected commit; see ## Findings.) An in-range index replaces exactly that position and leaves the others; index -1 (or a stale index past the end) appends. |
| AdminPanel.Slots | components/AdminPanel.tsx:110 | A dense skill list seen as array slots has no holes. |
| AdminPanel.CommitSkillAsWritten | components/AdminPanel.tsx:110-115 | As written, an in-range or negative index behaves like the corrected commit; an index at or past the end keeps the old skills in their slots, puts the skill at the index, and grows the array to index + 1 with holes between the old end and the index. |
| AdminPanel.RemoveSkillAt | components/AdminPanel.tsx:124 | Deleting an in-range index removes exactly that element and keeps the rest in order; an out-of-range index changes nothing. |
| AdminPanel.RemoveSkillAtShape | components/AdminPanel.tsx:124 | Deleting skill i makes the list one shorter; earlier skills stay put and later ones move up by one. |
| AdminPanel.TechField | components/AdminPanel.tsx:247 | The field shows an empty tag list as the empty string; for comma-free tags, splitting the field on ',' gives one piece per tag, the first as is and every later one behind the joiner's space. |
| AdminPanel.ParseTech | components/AdminPanel.tsx:248 | Parsing the tech field always gives at least one tag, each free of commas and of surrounding white space. |
| AdminPanel.TechFieldRoundTrip | components/AdminPanel.tsx:247-248 | Tags without commas or surrounding white space survive showing the field and reading it back. |
| AdminPanel.EmptyTechBecomesOneEmptyTag | components/AdminPanel.tsx:247-248 | An empty tag list does not survive the field: it comes back as one empty tag. |
| AdminPanel.Load | components/AdminPanel.tsx:22-26 | The panel shows what the content service returns, with nothing open in an editor. |
| AdminPanel.HandleSaveProject | components/AdminPanel.tsx:61-71 | The list shown is the upserted list, the store returns the same list, skills are untouched, the editor closes, and one event is announced. |
| AdminPanel.HandleDeleteProject | components/AdminPanel.tsx:73-83 | With three projects or fewer only the minimum alert is raised. Unconfirmed deletes change nothing. A confirmed delete shows and stores the filtered list and announces it once; the skills shown and stored and the editors are untouched. |
| AdminPanel.HandleAddProject | components/AdminPanel.tsx:85-95 | The editor opens on a new project carrying the supplied id; the list and the store are untouched. |
| AdminPanel.StartEditSkill | components/AdminPanel.tsx:98-101 | The skill editor opens on the given skill and position; lists and store are untouched. |
| AdminPanel.StartAddSkill | components/AdminPanel.tsx:103-106 | The skill editor opens on the template skill with index -1 (new); the lists and the browser state are untouched. |
| AdminPanel.CommitSaveSkill | components/AdminPanel.tsx:108-120 | (Corrected commit; see ## Findings.) With no skill open nothing happens. Otherwise the committed list is shown and stored, projects are untouched, the editor is reset to (none, -1), and one event is announced. |
| AdminPanel.DeleteSkill | components/AdminPanel.tsx:122-128 | Unconfirmed, nothing changes; confirmed, the list without that position is shown and stored, the projects shown and stored are untouched, and one event is announced. |
| AdminPanel.HandleResetAll | components/AdminPanel.tsx:52-58 | Unconfirmed, nothing changes. Confirmed, the panel shows and the store returns the default projects and skills, and one event is announced; the open skill editor and its index are left as they were. |
| AdminPanel.LoadFreshEstablishesInv | components/AdminPanel.tsx:22-26 | On a fresh browser the loaded panel mirrors the store, has unique ids and at least three projects. |
| AdminPanel.SaveProjectKeepsInv | components/AdminPanel.tsx:61-71 | Saving a project keeps the panel mirroring the store, with unique ids and at least three projects. |
| AdminPanel.DeleteProjectKeepsInv | components/AdminPanel.tsx:73-83 | Deleting a project, confirmed or not, keeps the invariant, because the guard refuses at three projects or fewer. |
| AdminPanel.SkillHandlersKeepInv | components/AdminPanel.tsx:98-128 | The skill handlers keep the invariant: they leave the projects and what the store returns for them alone. |
| AdminPanel.ResetKeepsInv | components/AdminPanel.tsx:52-58 | A reset keeps the invariant, because the defaults have three projects with distinct ids. |
| AdminPanel.HandlersKeepInv | components/AdminPanel.tsx:52-128 | Every handler, whatever the user confirms, keeps the panel mirroring the store with unique ids and at least three projects. |
| AdminPanel.StaleIndexAfterReset | components/AdminPanel.tsx:52-58 | A reset while skill 7 of 8 is open keeps index 7 over six defaults: the code as written then leaves a hole at position 6, while the corrected commit appends. |
| ContentOverlay.Next | components/ContentOverlay.tsx:84-87 | One step forward stays within the list, moves to the following position, and wraps from the last position to 0. |
| ContentOverlay.Prev | components/ContentOverlay.tsx:89-92 | One step back stays within the list, moves to the preceding position, and wraps from 0 to the last position. |
| ContentOverlay.NextPrevInverse | components/ContentOverlay.tsx:84-92 | On valid positions, back undoes forward and forward undoes back. |
| ContentOverlay.Visible | components/ContentOverlay.tsx:146-152 | With more than three projects, exactly three are shown, from the current position onward with wrap-around; otherwise the whole list. |
| ContentOverlay.WindowPositionsDistinct | components/ContentOverlay.tsx:146-152 | With more than three projects the three positions shown are pairwise distinct. |
| ContentOverlay.ModUnique | components/ContentOverlay.tsx:86 | Arithmetic helper for the carousel proofs: the remainder of q*n + r by n is r when 0 <= r < n. |
| ContentOverlay.NoSmallMultiple | components/ContentOverlay.tsx:86 | Arithmetic helper for the window proof: the only multiple of n strictly between -n and n is 0. |
| ContentOverlay.MulMonotone | components/ContentOverlay.tsx:86 | Arithmetic helper for the window proof: a positive multiple of n is at least n. |
| ContentOverlay.ModSucc | components/ContentOverlay.tsx:148-150 | The position after x is one more than x's position, or 0 after the last. |
| ContentOverlay.NextSlidesWindow | components/ContentOverlay.tsx:84-87 | Stepping forward slides the window by one: the last two projects shown become the first two. |
| ContentOverlay.Step | components/ContentOverlay.tsx:46-61 | A typing tick keeps the index on a role and the text a prefix of that role; it never starts deleting; it changes role only when deleting an empty text, to the next role mod 3; it starts the pause only at the full role while typing. |
| ContentOverlay.Elapse | components/ContentOverlay.tsx:55-56 | The pause running out switches to deleting exactly when a pause was pending, clears it, and keeps the text and the role. |
| ContentOverlay.Substring | components/ContentOverlay.tsx:50-52 | From 0, a bound inside the string gives that prefix, a negative bound gives the empty string, and a bound past the end gives the whole string. |
| ContentOverlay.InitialInv | components/ContentOverlay.tsx:26 | The initial typewriter state satisfies the invariant. |
| ContentOverlay.TransitionsKeepInv | components/ContentOverlay.tsx:46-63 | Both a typing step and the pause firing keep the invariant: the index names a role, the text shown is a prefix of it, and a pending pause only exists at the full role while typing. |
| ContentOverlay.StepMovesOneCharacter | components/ContentOverlay.tsx:49-53 | A typing step short of the full role shows one more character of it; a deleting step above empty shows one fewer; role and phase do not change. |
| ContentOverlay.DeletedOutWraps | components/ContentOverlay.tsx:57-59 | Deleting down to nothing returns to typing the next role, wrapping after the third, so the index stays below 3. |
| ContentOverlay.DeletingOnlyAfterFullText | components/ContentOverlay.tsx:55-56 | A step never starts deleting; the pause that does is only ever started with the full role shown while typing. |
| ContentOverlay.Run | components/ContentOverlay.tsx:46-63 | Any sequence of timer firings, typing ticks and pause expiries mixed in any order, keeps the typewriter invariant. |
| ContentOverlay.Steps | components/ContentOverlay.tsx:63 | Any number of consecutive typing ticks keeps the typewriter invariant. |
| ContentOverlay.TypingReachesFullRole | components/ContentOverlay.tsx:49-56 | Typing from any prefix shows the full role after as many steps as characters are missing, without changing role, phase or the pending pause. |
| ContentOverlay.DeletingReachesEmpty | components/ContentOverlay.tsx:49-51 | Deleting from any prefix empties the text after as many ticks as it has characters, still deleting, on the same role, with no pause pending. |
| ContentOverlay.PauseThenDelete | components/ContentOverlay.tsx:55-56 | At the full role a tick starts the pause and the pause running out enters the deleting phase with the full role still shown. |
| ContentOverlay.DeleteOut | components/ContentOverlay.tsx:49-59 | Deleting the full role takes one tick per character, and one more tick returns to typing the next role, wrapping after the last. |
| ContentOverlay.FullCycle | components/ContentOverlay.tsx:46-63 | From an empty text typing role i, n ticks (n the role's length), one more tick that starts the pause, the pause, and n + 1 ticks leave an empty text typing role i + 1 mod 3. |
| JarvisWidget.InitialWidgetShape | components/JarvisWidget.tsx:8-13 | The widget starts closed and idle, with one model greeting as its only message. |
| JarvisWidget.ToggleOpen | components/JarvisWidget.tsx:38-54 | The open flag flips and the prompt hides. The greeting is spoken exactly when opening with only the greeting in the log, unmuted, with an engine. Closing leaves no speech pending. The log is untouched. |
| JarvisWidget.ToggleTwiceRestoresOpen | components/JarvisWidget.tsx:46 | Two toggles restore the open flag and leave the log untouched. |
| JarvisWidget.TitleMatches | components/JarvisWidget.tsx:73-77 | A project matches exactly when its lowered title occurs somewhere in the lowered message or the message occurs somewhere in the title. |
| JarvisWidget.EqualityIsContainment | components/JarvisWidget.tsx:76 | The equality test in the title rule adds nothing to the two containment tests. |
| JarvisWidget.EmptyTitleMatchesAll | components/JarvisWidget.tsx:74-77 | A project with an empty title matches every message. |
| JarvisWidget.MatchIndex | components/JarvisWidget.tsx:74-77 | The position found is the first project whose lowered title contains, or is contained in, the lowered message; none is found exactly when no project matches. |
| JarvisWidget.MatchProject | components/JarvisWidget.tsx:72-77 | A linked project is one of the listed projects and matches the message; no project is linked exactly when none matches. |
| JarvisWidget.Description | components/JarvisWidget.tsx:81 | What is read aloud for a matched project is never empty. |
| JarvisWidget.Accept | components/JarvisWidget.tsx:57-63 | Blank text or a request in flight is refused with nothing changed. Otherwise exactly one user message with the trimmed text is appended, the input is cleared and loading is set; nothing is spoken. |
| JarvisWidget.Fail | components/JarvisWidget.tsx:66-95 | When a step after the reply throws, the log gains the reply and then exactly one model message flagged as an error; the linked project is cleared and loading ends. |
| JarvisWidget.Found | components/JarvisWidget.tsx:69-85 | When a project matched, the reply and then the follow-up naming the project are appended, the project is linked, and its description is what gets spoken. |
| JarvisWidget.Unmatched | components/JarvisWidget.tsx:86-88 | When no project matched, only the reply is appended, nothing is linked, and the reply itself is what gets spoken. |
| JarvisWidget.Settle | components/JarvisWidget.tsx:65-95 | After the model answers, the earlier log is kept as a prefix and at least one message is added. When a step after the reply throws, the error path logs the reply and the error with audio untouched. A success links the first project matching the message and takes the matched or unmatched path accordingly. Loading ends cleared. |
| JarvisWidget.ProcessMessage | components/JarvisWidget.tsx:56-96 | A refused message changes nothing. An accepted one logs the trimmed text, then at least one model message, clears the input and ends not loading. When a step after the reply throws, exactly the reply and the error message are added. A success links the first project whose title matches the trimmed text. |
| JarvisWidget.InFlightRefusesSecond | components/JarvisWidget.tsx:57 | While a message is in flight, a second message is refused outright. |
| JarvisWidget.NamingAProjectLinksOne | components/JarvisWidget.tsx:72-79 | A message containing a listed project's title, in any ASCII letter case, always links some matching project. |
| Text.TrimStart | components/JarvisWidget.tsx:57 | Trimming the start removes only white space and leaves a string that begins with a non-space. |
| Text.TrimEnd | components/JarvisWidget.tsx:57 | Trimming the end removes only white space and leaves a string that ends with a non-space. |
| Text.Trim | components/JarvisWidget.tsx:60 | Trimming yields a contiguous slice of the input with no white space at either end, and only white space is cut off. |
| Text.TrimFixedPoint | components/AdminPanel.tsx:248 | Trimming leaves a string unchanged exactly when it has no white space at either end. |
| Text.TrimEmptyIffBlank | components/JarvisWidget.tsx:57 | A string trims to empty exactly when it is all white space. |
| Text.TrimAfterSpace | components/AdminPanel.tsx:247-248 | The single space that `join(', ')` puts before a trimmed tag is removed again by trimming. |
| Text.ToLower | components/JarvisWidget.tsx:73-75 | Lower-casing keeps the length and maps each character on its own. |
| Text.Contains | components/JarvisWidget.tsx:76 | `includes` holds exactly when the needle occurs at some position of the string. |
| Text.ContainsSelf | components/JarvisWidget.tsx:76 | Every string includes itself. |
| Text.Split | components/AdminPanel.tsx:248 | Splitting on a character always yields at least one piece, and no piece contains the separator. |
| Text.JoinSplit | components/AdminPanel.tsx:248 | Joining the pieces of a split with the same separator gives back the string. |
| Text.SplitCount | components/AdminPanel.tsx:248 | A split yields one piece more than the string has separator characters. |
| Text.SplitNoSeparator | services/dataService.ts:52 | A string without the separator splits into itself alone. |
| Text.SplitAfterHead | services/dataService.ts:52 | A separator after a separator-free head splits off that head as the first piece. |
| Text.SplitJoin | components/AdminPanel.tsx:247-248 | Splitting a join of separator-free parts gives back the parts, each after the first prefixed by what follows the separator. |
| Text.PrependPlain | components/AdminPanel.tsx:248 | Prepending separator-free text only extends the first piece of a split. |

## Left out

- Server-side rendering: the `typeof window === 'undefined'` branches of the getters are not modelled; the model always has a browser.
- DataService.GetProjects: a stored JSON document of the wrong shape (for example a skill list under the projects key) is returned as-is by the code; the model treats any value that does not decode to a project list as a decode failure and falls back to the defaults. JSON text itself is abstract.
- DataService.GetSkills: the same simplification as for projects.
- Timers, typing and deleting speeds, the pause length and the 2-second prompt delay: each timer firing is one discrete transition (`ContentOverlay.Step`, `ContentOverlay.Elapse`); the prompt bubble appears through no modelled timer.
- Overlapping timers: a step that fires while a pause is pending is allowed by the model; the React effect clean-up that cancels the typing timer is not modelled.
- JarvisWidget.Settle, JarvisWidget.Fail: the language-model call (`sendMessageToJarvis`) is a parameter `Reply`. That service catches every error itself and returns a text (services/geminiService.ts:33-35), so it never rejects. The widget's `catch` is therefore reached only from lines 69-88, after the reply has been logged at line 69, for example when `projects.find` throws over a stored value of the wrong shape. `ThrewAfterReply` models that case: the log ends with the user message, the reply and the error. The model does not say which stored values make the matching throw.
- Storage.NumText: numbers are unbounded integers. In JavaScript, `String` then `parseInt` gives back the number only for integers below 2^53 that print without an exponent. `String(1e21)` is `"1e+21"`, which `parseInt` reads as 1, and `parseInt("9007199254740993")` gives 9007199254740992.
- CvService.Succ: the `+ 1` is exact only below 2^53; past that, JavaScript numbers lose the increment.
- CvService.BumpCVVersion: "one more than before" holds only below 2^53, for the same reasons as `Succ` and `NumText`.
- CvService.SetCVVersion: reading back exactly n holds only for integers below 2^53, because of the `String`/`parseInt` limits listed for `NumText`.
- `toLowerCase` is modelled on ASCII letters only; other letters are left as they are.
- `trim` knows the ASCII white space, the no-break space, the byte-order mark and the line and paragraph separators, not every Unicode space character.
- Audio: oscillator frequencies, gain envelopes, noise buffers and durations of the four sound effects are not modelled; an effect is one log entry. Utterance rate, pitch and volume are recorded as constants only.
- The `quickOptions` buttons, scrolling, the "preview" and navigation actions that use `lastProject`, and the chat form handlers are UI plumbing.
- Admin login with its hard-coded credentials, the CV upload and download flows, and the CV-version refresh on load are left out; the CV service they call is modelled.
- The 3D scene, the serverless mail and upload handlers, the CV metadata poller and the endpoint validation script are presentation or network forwarding.
- The IndexedDB open/upgrade plumbing and its asynchronous callbacks: the store is a synchronous map from key to record.
- `handleProjectClick`, `closeProjectModal` and `handleDownloadCV` in the content overlay are DOM and speech side effects outside the state logic.

## Findings

| source | as written | input that shows it | evidently intended | confidence | as-written member | corrected member |
|---|---|---|---|---|---|---|
| components/AdminPanel.tsx:108-120 | `commitSaveSkill` assigns `newSkills[editingSkillIndex]` for any index >= 0, and `handleResetAll` (lines 52-58, reachable from the always-visible reset button) does not clear the open skill editor | eight skills, skill 7 open in the editor, confirmed reset to the six defaults, then save: the array gets a hole at position 6, stored as `null` | a save after the list shrank should append (or close the editor), never leave a hole | medium; not executed | AdminPanel.CommitSkillAsWritten, AdminPanel.StaleIndexAfterReset | AdminPanel.CommitSkill (used by AdminPanel.CommitSaveSkill) |

=== FILE: admin_panel.dfy ===
/** The admin panel's content editing: upsert and guarded delete of
    projects, replace-or-append and delete of skills, the comma-separated
    tech field, and the handlers that tie these edits to the content
    service. `window.confirm` answers are inputs; `window.alert` messages
    are collected in a log. */
module AdminPanel {
  import opened Types
  import opened Text
  import opened Storage
  import opened Defaults
  import opened DataService

  // ---------------------------------------------------------------------------
  // projects

  /** The lists being edited and the editor's selection. An index of -1
      means the skill being edited is new. */
  datatype AdminState = AdminState(
    projects: seq<Project>,
    skills: seq<Skill>,
    editingProject: Option<Project>,
    editingSkill: Option<Skill>,
    editingSkillIndex: int)

  /** The panel together with the browser it writes to and the alerts it
      has raised. */
  datatype Session = Session(admin: AdminState, browser: Browser, alerts: seq<string>)

  const MinimumAlert: string := "System Protocol: Minimum of 3 projects required for portfolio integrity."

  /** Saving a project: an entry with the same id is replaced where it
      stands; a project with a new id goes at the end. */
  function UpsertProject(ps: seq<Project>, p: Project): (r: seq<Project>)
    ensures HasId(ps, p.id) ==> |r| == |ps|
    ensures HasId(ps, p.id) ==> forall i :: 0 <= i < |ps| && ps[i].id != p.id ==> r[i] == ps[i]
    ensures HasId(ps, p.id) ==> forall i :: 0 <= i < |ps| && ps[i].id == p.id ==> r[i] == p
    ensures !HasId(ps, p.id) ==> r == ps + [p]
    ensures p in r
  {
    if HasId(ps, p.id) then
      seq(|ps|, i requires 0 <= i < |ps| => if ps[i].id == p.id then p else ps[i])
    else ps + [p]
  }

  /** Upserting keeps ids unique, and saving the same project twice is the
      same as saving it once. */
  lemma UpsertKeepsIdsUnique(ps: seq<Project>, p: Project)
    requires UniqueIds(ps)
    ensures UniqueIds(UpsertProject(ps, p))
    ensures UpsertProject(UpsertProject(ps, p), p) == UpsertProject(ps, p)
    ensures |UpsertProject(ps, p)| >= |ps|
  {
    var r := UpsertProject(ps, p);
    assert HasId(r, p.id) by {
      var k :| 0 <= k < |r| && r[k] == p;
    }
    if HasId(ps, p.id) {
      assert forall i :: 0 <= i < |ps| ==> r[i].id == ps[i].id;
    } else {
      assert forall i :: 0 <= i < |ps| ==> r[i] == ps[i];
    }
  }

  /** How many projects carry the id. */
  function CountId(ps: seq<Project>, id: string): (n: nat)
    ensures n <= |ps|
    ensures n == 0 <==> !HasId(ps, id)
  {
    if ps == [] then 0
    else
      assert forall i :: 1 <= i < |ps| ==> ps[1..][i - 1] == ps[i];
      (if ps[0].id == id then 1 else 0) + CountId(ps[1..], id)
  }

  /** With unique ids at most one project carries any id. */
  lemma {:induction false} UniqueCountAtMostOne(ps: seq<Project>, id: string)
    requires UniqueIds(ps)
    ensures CountId(ps, id) <= 1
  {
    if ps != [] {
      UniqueCountAtMostOne(ps[1..], id);
      if ps[0].id == id {
        assert !HasId(ps[1..], id) by {
          forall i | 0 <= i < |ps| - 1 ensures ps[1..][i].id != id {
            assert ps[1..][i] == ps[i + 1];
          }
        }
      }
    }
  }

  /** `projects.filter(p => p.id !== id)`: exactly the projects with the id
      are dropped. */
  function RemoveProject(ps: seq<Project>, id: string): (r: seq<Project>)
    ensures |r| == |ps| - CountId(ps, id)
  {
    if ps == [] then []
    else (if ps[0].id == id then [] else [ps[0]]) + RemoveProject(ps[1..], id)
  }

  /** The projects kept are exactly the original ones with another id. */
  lemma {:induction false} RemoveProjectMembers(ps: seq<Project>, id: string)
    ensures forall q :: q in RemoveProject(ps, id) <==> q in ps && q.id != id
    ensures !HasId(RemoveProject(ps, id), id)
  {
    if ps != [] {
      RemoveProjectMembers(ps[1..], id);
      assert forall q :: q in ps <==> q == ps[0] || q in ps[1..];
    }
    var r := RemoveProject(ps, id);
    assert forall i :: 0 <= i < |r| ==> r[i] in r;
  }

  /** Removal keeps the survivors in their original relative order: it
      distributes over concatenation. */
  lemma {:induction false} RemoveProjectKeepsOrder(a: seq<Project>, b: seq<Project>, id: string)
    ensures RemoveProject(a + b, id) == RemoveProject(a, id) + RemoveProject(b, id)
  {
    if a == [] {
      assert a + b == b;
    } else {
      RemoveProjectKeepsOrder(a[1..], b, id);
      RemoveFront(a, b, id);
      ConcatAssoc(if a[0].id == id then [] else [a[0]], RemoveProject(a[1..], id), RemoveProject(b, id));
    }
  }

  /** One step of the filter on a concatenation with a non-empty front. */
  lemma RemoveFront(a: seq<Project>, b: seq<Project>, id: string)
    requires a != []
    ensures RemoveProject(a + b, id) == (if a[0].id == id then [] else [a[0]]) + RemoveProject(a[1..] + b, id)
  {
    assert (a + b)[1..] == a[1..] + b;
  }

  lemma ConcatAssoc<T>(a: seq<T>, b: seq<T>, c: seq<T>)
    ensures a + (b + c) == (a + b) + c
  {
  }

  /** Ids stay unique when a project whose id is new goes in front. */
  lemma UniqueCons(x: Project, rest: seq<Project>)
    requires UniqueIds(rest)
    requires forall q :: q in rest ==> q.id != x.id
    ensures UniqueIds([x] + rest)
  {
    var r := [x] + rest;
    forall i, j | 0 <= i < j < |r| ensures r[i].id != r[j].id {
      assert r[j] == rest[j - 1];
      if i == 0 {
        assert r[j] in rest;
      } else {
        assert r[i] == rest[i - 1];
      }
    }
  }

  /** The tail of a list with unique ids has unique ids, none equal to the
      head's. */
  lemma UniqueTail(ps: seq<Project>)
    requires ps != [] && UniqueIds(ps)
    ensures UniqueIds(ps[1..])
    ensures forall q :: q in ps[1..] ==> q.id != ps[0].id
  {
    forall i, j | 0 <= i < j < |ps| - 1 ensures ps[1..][i].id != ps[1..][j].id {
      assert ps[1..][i] == ps[i + 1] && ps[1..][j] == ps[j + 1];
    }
    forall q | q in ps[1..] ensures q.id != ps[0].id {
      var k :| 0 <= k < |ps[1..]| && ps[1..][k] == q;
      assert ps[k + 1] == q;
    }
  }

  /** Removal keeps ids unique. */
  lemma {:induction false} RemoveProjectKeepsIdsUnique(ps: seq<Project>, id: string)
    requires UniqueIds(ps)
    ensures UniqueIds(RemoveProject(ps, id))
  {
    if ps != [] {
      UniqueTail(ps);
      RemoveProjectKeepsIdsUnique(ps[1..], id);
      RemoveProjectMembers(ps[1..], id);
      if ps[0].id != id {
        UniqueCons(ps[0], RemoveProject(ps[1..], id));
      }
    }
  }

  /** A delete the guard lets through (more than three projects) leaves at
      least three when ids are unique. */
  lemma PermittedDeleteKeepsMinimum(ps: seq<Project>, id: string)
    requires UniqueIds(ps)
    requires |ps| > MinProjects
    ensures |RemoveProject(ps, id)| >= MinProjects
  {
    UniqueCountAtMostOne(ps, id);
  }

  /** Without unique ids the guard is not enough: four projects sharing one
      id all go at once. */
  lemma DuplicateIdsDefeatGuard(p: Project)
    ensures |RemoveProject([p, p, p, p], p.id)| == 0
  {
  }

  // ---------------------------------------------------------------------------
  // skills

  /** `newSkills[index] = skill` on a dense copy, or `push` for index -1,
      with the index kept in range: a stale index past the end appends. */
  function CommitSkill(ss: seq<Skill>, s: Skill, index: int): (r: seq<Skill>)
    ensures 0 <= index < |ss| ==> |r| == |ss| && r[index] == s
    ensures 0 <= index < |ss| ==> forall i :: 0 <= i < |ss| && i != index ==> r[i] == ss[i]
    ensures !(0 <= index < |ss|) ==> r == ss + [s]
  {
    if 0 <= index < |ss| then ss[index := s] else ss + [s]
  }

  /** A JavaScript array slot: `None` is a hole, which `JSON.stringify`
      writes as `null`. */
  function Slots(ss: seq<Skill>): (r: seq<Option<Skill>>)
    ensures |r| == |ss| && forall i :: 0 <= i < |ss| ==> r[i] == Some(ss[i])
  {
    seq(|ss|, i requires 0 <= i < |ss| => Some(ss[i]))
  }

  /** `commitSaveSkill` as written: assignment at an index at or past the
      end of the array grows it, leaving holes between the old end and
      the index. */
  function CommitSkillAsWritten(ss: seq<Skill>, s: Skill, index: int): (r: seq<Option<Skill>>)
    ensures 0 <= index < |ss| ==> r == Slots(CommitSkill(ss, s, index))
    ensures index < 0 ==> r == Slots(CommitSkill(ss, s, index))
    ensures index >= |ss| ==> |r| == index + 1 && r[index] == Some(s)
    ensures index >= |ss| ==> forall i :: |ss| <= i < index ==> r[i] == None
    ensures index >= |ss| ==> r[..|ss|] == Slots(ss)
  {
    if index >= 0 then
      if index < |ss| then Slots(ss)[index := Some(s)]
      else Slots(ss) + seq(index - |ss|, _ => None) + [Some(s)]
    else Slots(ss) + [Some(s)]
  }

  /** `skills.filter((_, i) => i !== index)`. */
  function RemoveSkillAt(ss: seq<Skill>, index: int): (r: seq<Skill>)
    ensures 0 <= index < |ss| ==> r == ss[..index] + ss[index + 1..]
    ensures !(0 <= index < |ss|) ==> r == ss
  {
    if ss == [] then []
    else
      var rest := RemoveSkillAt(ss[1..], index - 1);
      if index == 0 then
        rest
      else
        assert 0 < index < |ss| ==> ss[..index] == [ss[0]] + ss[1..][..index - 1];
        [ss[0]] + rest
  }

  /** Deleting skill i of the list drops exactly that element: one shorter,
      the ones before stay put, the ones after move up by one. */
  lemma RemoveSkillAtShape(ss: seq<Skill>, index: int)
    requires 0 <= index < |ss|
    ensures |RemoveSkillAt(ss, index)| == |ss| - 1
    ensures forall i :: 0 <= i < index ==> RemoveSkillAt(ss, index)[i] == ss[i]
    ensures forall i :: index <= i < |ss| - 1 ==> RemoveSkillAt(ss, index)[i] == ss[i + 1]
  {
  }

  // ---------------------------------------------------------------------------
  // the tech field

  /** What the tech input shows: the tags joined with ", ". Read back on
      ',', comma-free tags come back one piece each, every piece after the
      first with the joiner's space in front. */
  function TechField(tags: seq<string>): (r: string)
    ensures tags == [] ==> r == []
    ensures |tags| >= 1 && (forall k :: 0 <= k < |tags| ==> ',' !in tags[k]) ==>
              && |Split(r, ',')| == |tags| && Split(r, ',')[0] == tags[0]
              && forall k :: 1 <= k < |tags| ==> Split(r, ',')[k] == " " + tags[k]
  {
    if |tags| >= 1 && (forall k :: 0 <= k < |tags| ==> ',' !in tags[k]) then
      assert ", " == [','] + " ";
      SplitJoin(tags, ',', " ");
      Join(tags, ", ")
    else Join(tags, ", ")
  }

  /** What typing into the tech input stores: the text split on ',' with
      every piece trimmed. */
  function ParseTech(text: string): (r: seq<string>)
    ensures |r| >= 1
    ensures forall k :: 0 <= k < |r| ==> Trimmed(r[k]) && ',' !in r[k]
  {
    var pieces := Split(text, ',');
    seq(|pieces|, k requires 0 <= k < |pieces| => Trim(pieces[k]))
  }

  /** Tags without commas and without surrounding white space survive the
      field unchanged. */
  lemma TechFieldRoundTrip(tags: seq<string>)
    requires |tags| >= 1
    requires forall k :: 0 <= k < |tags| ==> ',' !in tags[k] && Trimmed(tags[k])
    ensures ParseTech(TechField(tags)) == tags
  {
    var pieces := Split(TechField(tags), ',');
    TrimFixedPoint(tags[0]);
    forall k | 1 <= k < |tags| ensures Trim(pieces[k]) == tags[k] {
      assert pieces[k] == [' '] + tags[k];
      TrimAfterSpace(tags[k]);
    }
  }

  /** An empty tag list does not survive: the field shows "" and reading
      it back gives one empty tag. */
  lemma EmptyTechBecomesOneEmptyTag()
    ensures ParseTech(TechField([])) == [""]
  {
  }

  // ---------------------------------------------------------------------------
  // handlers

  /** The panel as it loads: both lists read from the content service,
      nothing being edited. */
  function Load(b: Browser): (s: Session)
    ensures s.admin.projects == GetProjects(b) && s.admin.skills == GetSkills(b)
    ensures s.admin.editingProject.None? && s.admin.editingSkill.None?
    ensures s.browser == b
  {
    Session(AdminState(GetProjects(b), GetSkills(b), None, None, -1), b, [])
  }

  /** `handleSaveProject`: upsert, persist, close the editor. */
  function HandleSaveProject(s: Session, p: Project): (r: Session)
    ensures r.admin.projects == UpsertProject(s.admin.projects, p)
    ensures GetProjects(r.browser) == r.admin.projects
    ensures GetSkills(r.browser) == GetSkills(s.browser)
    ensures r.admin.editingProject.None?
    ensures r.admin.skills == s.admin.skills
    ensures r.browser.events == s.browser.events + [DataUpdated]
  {
    var ps := UpsertProject(s.admin.projects, p);
    s.(admin := s.admin.(projects := ps, editingProject := None),
       browser := SaveProjects(s.browser, ps))
  }

  /** `handleDeleteProject`: refused with an alert while there are three
      projects or fewer; otherwise removes the id if the user confirms. */
  function HandleDeleteProject(s: Session, id: string, confirmed: bool): (r: Session)
    ensures |s.admin.projects| <= MinProjects ==> r == s.(alerts := s.alerts + [MinimumAlert])
    ensures |s.admin.projects| > MinProjects && !confirmed ==> r == s
    ensures |s.admin.projects| > MinProjects && confirmed ==>
              r.admin.projects == RemoveProject(s.admin.projects, id)
              && GetProjects(r.browser) == r.admin.projects
              && r.admin == s.admin.(projects := r.admin.projects)
              && GetSkills(r.browser) == GetSkills(s.browser)
              && r.browser.events == s.browser.events + [DataUpdated]
              && r.alerts == s.alerts
  {
    if |s.admin.projects| <= MinProjects then
      s.(alerts := s.alerts + [MinimumAlert])
    else if confirmed then
      var ps := RemoveProject(s.admin.projects, id);
      s.(admin := s.admin.(projects := ps), browser := SaveProjects(s.browser, ps))
    else s
  }

  /** `handleAddProject`: opens the editor on a fresh template whose id is
      the clock reading `Date.now().toString()` supplies. */
  function HandleAddProject(s: Session, newId: string): (r: Session)
    ensures r.admin.editingProject.Some? && r.admin.editingProject.value.id == newId
    ensures r.admin.projects == s.admin.projects && r.browser == s.browser
  {
    var p := Project(newId, "New Project", "Project description...", ["React"],
                     "https://picsum.photos/600/400", "#", Some(""));
    s.(admin := s.admin.(editingProject := Some(p)))
  }

  /** `startEditSkill`: opens the skill editor on the given skill and
      position; the lists and the store are untouched. */
  function StartEditSkill(s: Session, sk: Skill, index: int): (r: Session)
    ensures r.admin.editingSkill == Some(sk) && r.admin.editingSkillIndex == index
    ensures r.admin.projects == s.admin.projects && r.admin.skills == s.admin.skills
    ensures r.browser == s.browser
  {
    s.(admin := s.admin.(editingSkill := Some(sk), editingSkillIndex := index))
  }

  /** `startAddSkill`: a template skill marked new with index -1. */
  function StartAddSkill(s: Session): (r: Session)
    ensures r.admin.editingSkill == Some(Skill("New Skill", 50, Frontend))
    ensures r.admin.editingSkillIndex == -1
    ensures r.admin.projects == s.admin.projects && r.admin.skills == s.admin.skills
    ensures r.browser == s.browser
  {
    StartEditSkill(s, Skill("New Skill", 50, Frontend), -1)
  }

  /** `commitSaveSkill`: nothing happens unless a skill is being edited;
      otherwise the skill replaces its slot (or is appended), the list is
      persisted, and the editor is reset to (null, -1). */
  function CommitSaveSkill(s: Session): (r: Session)
    ensures s.admin.editingSkill.None? ==> r == s
    ensures s.admin.editingSkill.Some? ==>
              r.admin.skills == CommitSkill(s.admin.skills, s.admin.editingSkill.value, s.admin.editingSkillIndex)
              && GetSkills(r.browser) == r.admin.skills
              && r.admin.editingSkill.None? && r.admin.editingSkillIndex == -1
              && r.admin.projects == s.admin.projects
              && GetProjects(r.browser) == GetProjects(s.browser)
              && r.browser.events == s.browser.events + [DataUpdated]
  {
    match s.admin.editingSkill
    case None => s
    case Some(sk) =>
      var ss := CommitSkill(s.admin.skills, sk, s.admin.editingSkillIndex);
      s.(admin := s.admin.(skills := ss, editingSkill := None, editingSkillIndex := -1),
         browser := SaveSkills(s.browser, ss))
  }

  /** `deleteSkill`: removes the skill at the index if the user confirms. */
  function DeleteSkill(s: Session, index: int, confirmed: bool): (r: Session)
    ensures !confirmed ==> r == s
    ensures confirmed ==> r.admin.skills == RemoveSkillAt(s.admin.skills, index)
                          && GetSkills(r.browser) == r.admin.skills
                          && r.admin.projects == s.admin.projects
                          && GetProjects(r.browser) == GetProjects(s.browser)
                          && r.browser.events == s.browser.events + [DataUpdated]
  {
    if confirmed then
      var ss := RemoveSkillAt(s.admin.skills, index);
      s.(admin := s.admin.(skills := ss), browser := SaveSkills(s.browser, ss))
    else s
  }

  /** `handleResetAll`: on confirmation, restores the defaults and reloads
      both lists. The editor's selection is left as it was. */
  function HandleResetAll(s: Session, confirmed: bool): (r: Session)
    ensures !confirmed ==> r == s
    ensures confirmed ==> r.admin.projects == DefaultProjects && r.admin.skills == DefaultSkills
                          && GetProjects(r.browser) == DefaultProjects
                          && GetSkills(r.browser) == DefaultSkills
                          && r.browser.events == s.browser.events + [DataUpdated]
                          && r.admin.editingSkill == s.admin.editingSkill
                          && r.admin.editingSkillIndex == s.admin.editingSkillIndex
  {
    if confirmed then
      var b := ResetData(s.browser);
      s.(admin := s.admin.(projects := GetProjects(b), skills := GetSkills(b)), browser := b)
    else s
  }

  // ---------------------------------------------------------------------------
  // the session invariant

  /** What the panel keeps true: it shows what the store holds, ids are
      unique, and there are never fewer than three projects. */
  predicate Inv(s: Session) {
    && s.admin.projects == GetProjects(s.browser)
    && UniqueIds(s.admin.projects)
    && |s.admin.projects| >= MinProjects
  }

  /** A fresh browser satisfies the invariant once the panel loads. */
  lemma LoadFreshEstablishesInv()
    ensures Inv(Load(EmptyBrowser))
  {
    DefaultProjectsShape();
  }

  /** Saving a project keeps the invariant. */
  lemma SaveProjectKeepsInv(s: Session, p: Project)
    requires Inv(s)
    ensures Inv(HandleSaveProject(s, p))
  {
    UpsertKeepsIdsUnique(s.admin.projects, p);
  }

  /** Deleting a project keeps the invariant, whatever the user confirms:
      the guard refuses at three projects or fewer. */
  lemma DeleteProjectKeepsInv(s: Session, id: string, confirmed: bool)
    requires Inv(s)
    ensures Inv(HandleDeleteProject(s, id, confirmed))
  {
    if |s.admin.projects| > MinProjects {
      PermittedDeleteKeepsMinimum(s.admin.projects, id);
      RemoveProjectKeepsIdsUnique(s.admin.projects, id);
    }
  }

  /** The skill handlers leave the projects and what the store returns
      for them alone, so they keep the invariant. */
  lemma SkillHandlersKeepInv(s: Session, sk: Skill, index: int, confirmed: bool)
    requires Inv(s)
    ensures Inv(StartEditSkill(s, sk, index))
    ensures Inv(StartAddSkill(s))
    ensures Inv(CommitSaveSkill(s))
    ensures Inv(DeleteSkill(s, index, confirmed))
  {
  }

  /** A reset keeps the invariant: the defaults have three projects with
      distinct ids. */
  lemma ResetKeepsInv(s: Session, confirmed: bool)
    requires Inv(s)
    ensures Inv(HandleResetAll(s, confirmed))
  {
    DefaultProjectsShape();
  }

  /** Every handler keeps the invariant, whatever the user confirms. */
  lemma HandlersKeepInv(s: Session, p: Project, id: string, sk: Skill, index: int, confirmed: bool, newId: string)
    requires Inv(s)
    ensures Inv(HandleSaveProject(s, p))
    ensures Inv(HandleDeleteProject(s, id, confirmed))
    ensures Inv(HandleAddProject(s, newId))
    ensures Inv(StartEditSkill(s, sk, index))
    ensures Inv(StartAddSkill(s))
    ensures Inv(CommitSaveSkill(s))
    ensures Inv(DeleteSkill(s, index, confirmed))
    ensures Inv(HandleResetAll(s, confirmed))
  {
    SaveProjectKeepsInv(s, p);
    DeleteProjectKeepsInv(s, id, confirmed);
    SkillHandlersKeepInv(s, sk, index, confirmed);
    ResetKeepsInv(s, confirmed);
  }

  // ---------------------------------------------------------------------------
  // a stale skill index

  /** The reset button stays available while a skill is open in the
      editor, and the reset does not clear the editor's index. With eight
      skills, skill 7 open, a confirmed reset (back to six defaults) and a
      save, the code as written leaves a hole at position 6, stored as
      `null`; the corrected commit appends instead and leaves no hole. */
  lemma StaleIndexAfterReset(s: Session, sk: Skill)
    requires |s.admin.skills| == 8
    requires s.admin.editingSkill == Some(sk) && s.admin.editingSkillIndex == 7
    ensures var t := HandleResetAll(s, true);
            && t.admin.editingSkill == Some(sk) && t.admin.editingSkillIndex == 7
            && |t.admin.skills| == 6
            && CommitSkillAsWritten(t.admin.skills, sk, 7)[6] == None
            && CommitSaveSkill(t).admin.skills == DefaultSkills + [sk]
  {
  }
}

=== FILE: audio_service.dfy ===
/** The audio service: one global mute flag that gates the spoken voice and
    the four synthesised sound effects. The speech engine and the WebAudio
    graph are replaced by one append-only log of what the service asked
    them to do. */
module Audio {
  import opened Types
  import opened Text

  datatype Voice = Voice(name: string)

  /** A `SpeechSynthesisUtterance` as `speak` configures it; `voice` is
      `None` when the engine's default voice is left in place. */
  datatype Utterance = Utterance(text: string, rate: real, pitch: real, volume: real, voice: Option<Voice>)

  datatype Sound = Thruster | Servo | Hover | Click

  /** What the service asks of the browser: cancel all queued speech,
      queue an utterance, or start a sound effect. */
  datatype AudioEvent = Cancel | Utter(u: Utterance) | Effect(s: Sound)

  /** `muted` is the module-level flag; `speech` and `webAudio` say whether
      the browser offers `speechSynthesis` and an `AudioContext`;
      `voices` is what `getVoices()` reports. */
  datatype AudioState = AudioState(
    muted: bool,
    speech: bool,
    webAudio: bool,
    voices: seq<Voice>,
    log: seq<AudioEvent>)

  /** Utterances queued since the last cancel: the ones still pending. */
  function Pending(log: seq<AudioEvent>): seq<Utterance> {
    if log == [] then []
    else
      var init := log[..|log| - 1];
      match log[|log| - 1]
      case Cancel => []
      case Utter(u) => Pending(init) + [u]
      case Effect(_) => Pending(init)
  }

  /** The texts of every utterance ever queued, in order. */
  function Spoken(log: seq<AudioEvent>): seq<string> {
    if log == [] then []
    else
      var init := log[..|log| - 1];
      match log[|log| - 1]
      case Utter(u) => Spoken(init) + [u.text]
      case _ => Spoken(init)
  }

  /** Appending one event changes the pending and the spoken speech only
      as that event says. */
  lemma PendingAppend(log: seq<AudioEvent>, e: AudioEvent)
    ensures e.Cancel? ==> Pending(log + [e]) == []
    ensures e.Utter? ==> Pending(log + [e]) == Pending(log) + [e.u]
    ensures e.Effect? ==> Pending(log + [e]) == Pending(log)
    ensures e.Utter? ==> Spoken(log + [e]) == Spoken(log) + [e.u.text]
    ensures !e.Utter? ==> Spoken(log + [e]) == Spoken(log)
  {
    assert (log + [e])[..|log|] == log;
  }

  /** `stopSpeaking`: cancels all queued speech when there is an engine. */
  function StopSpeaking(a: AudioState): (r: AudioState)
    ensures a.speech ==> Pending(r.log) == [] && r.log == a.log + [Cancel]
    ensures !a.speech ==> r == a
    ensures Spoken(r.log) == Spoken(a.log)
    ensures r.muted == a.muted && r.speech == a.speech && r.webAudio == a.webAudio
    ensures r.voices == a.voices
  {
    if a.speech then
      PendingAppend(a.log, Cancel);
      a.(log := a.log + [Cancel])
    else a
  }

  /** `setMute`: muting also silences any speech in progress; unmuting
      touches nothing but the flag. */
  function SetMute(a: AudioState, mute: bool): (r: AudioState)
    ensures r.muted == mute
    ensures mute && a.speech ==> Pending(r.log) == []
    ensures !mute ==> r.log == a.log
    ensures r.speech == a.speech && r.webAudio == a.webAudio && r.voices == a.voices
  {
    var b := a.(muted := mute);
    if mute then StopSpeaking(b) else b
  }

  /** `toggleMute`: flips the flag and reports its new value. */
  function ToggleMute(a: AudioState): (r: (AudioState, bool))
    ensures r.1 == !a.muted
    ensures r.0.muted == r.1
  {
    var b := SetMute(a, !a.muted);
    (b, b.muted)
  }

  /** `isSystemMuted`: the flag that gates all output. While it reports
      true, speaking and every sound effect do nothing; while it reports
      false, speaking with an engine present leaves one utterance
      pending. */
  function IsSystemMuted(a: AudioState): (r: bool)
    ensures r ==> forall t :: Speak(a, t) == a
    ensures r ==> forall e :: PlaySound(a, e) == a
    ensures !r && a.speech ==> forall t :: |Pending(Speak(a, t).log)| == 1
  {
    a.muted
  }

  /** The mute query reports the flag the last setter left: what
      `setMute` set, or what `toggleMute` returned. Toggling twice restores
      the original flag. */
  lemma MuteQueries(a: AudioState, m: bool)
    ensures IsSystemMuted(SetMute(a, m)) == m
    ensures IsSystemMuted(ToggleMute(a).0) == ToggleMute(a).1
    ensures IsSystemMuted(ToggleMute(ToggleMute(a).0).0) == IsSystemMuted(a)
  {
  }

  // ---------------------------------------------------------------------------
  // voice selection

  const GoogleMale: string := "Google UK English Male"

  /** The voice-name test `speak` applies. */
  predicate IsPreferred(v: Voice) {
    Contains(v.name, GoogleMale) || Contains(v.name, "Daniel") || Contains(v.name, "Male")
  }

  /** The position of the first preferred voice, as `Array.prototype.find`
      scans. */
  function PreferredIndex(voices: seq<Voice>): (r: Option<nat>)
    ensures r.Some? ==> r.value < |voices| && IsPreferred(voices[r.value])
    ensures r.Some? ==> forall j :: 0 <= j < r.value ==> !IsPreferred(voices[j])
    ensures r.None? ==> forall j :: 0 <= j < |voices| ==> !IsPreferred(voices[j])
  {
    if voices == [] then None
    else if IsPreferred(voices[0]) then Some(0)
    else
      match PreferredIndex(voices[1..])
      case Some(k) => Some(k + 1)
      case None => None
  }

  /** The voice `speak` installs, or `None` to leave the default. */
  function PreferredVoice(voices: seq<Voice>): (r: Option<Voice>)
    ensures r.Some? ==> r.value in voices && IsPreferred(r.value)
    ensures r.None? ==> forall v :: v in voices ==> !IsPreferred(v)
  {
    match PreferredIndex(voices)
    case Some(k) => Some(voices[k])
    case None => None
  }

  /** The first of the three name tests is subsumed by the third: any name
      containing "Google UK English Male" contains "Male". */
  lemma PreferredIsDanielOrMale(v: Voice)
    ensures IsPreferred(v) <==> Contains(v.name, "Daniel") || Contains(v.name, "Male")
  {
    if Contains(v.name, GoogleMale) {
      var i :| OccursAt(v.name, GoogleMale, i);
      assert GoogleMale[18..22] == "Male";
      assert v.name[i + 18..i + 22] == v.name[i..i + 22][18..22];
      assert OccursAt(v.name, "Male", i + 18);
    }
  }

  // ---------------------------------------------------------------------------
  // speech and sound effects

  /** `speak`: silent while muted or without a speech engine; otherwise it
      cancels whatever was queued and queues exactly one new utterance. */
  function Speak(a: AudioState, text: string): (r: AudioState)
    ensures a.muted || !a.speech ==> r == a
    ensures !a.muted && a.speech ==>
              |Pending(r.log)| == 1 && Pending(r.log)[0].text == text
              && Pending(r.log)[0].voice == PreferredVoice(a.voices)
    ensures !a.muted && a.speech ==>
              |r.log| == |a.log| + 2 && r.log[..|a.log|] == a.log && r.log[|a.log|] == Cancel
    ensures Spoken(r.log) == Spoken(a.log) + (if !a.muted && a.speech then [text] else [])
    ensures r.muted == a.muted && r.speech == a.speech && r.webAudio == a.webAudio
    ensures r.voices == a.voices
  {
    if a.muted || !a.speech then a
    else
      var u := Utterance(text, 1.05, 0.9, 0.8, PreferredVoice(a.voices));
      PendingAppend(a.log, Cancel);
      PendingAppend(a.log + [Cancel], Utter(u));
      assert a.log + [Cancel] + [Utter(u)] == a.log + [Cancel, Utter(u)];
      a.(log := a.log + [Cancel, Utter(u)])
  }

  /** `playThrusterSound`, `playServoSound`, `playHoverSound` and
      `playClickSound`: a no-op while muted or without WebAudio, otherwise
      one effect started. Sound effects never touch the pending speech. */
  function PlaySound(a: AudioState, s: Sound): (r: AudioState)
    ensures a.muted || !a.webAudio ==> r == a
    ensures !a.muted && a.webAudio ==> r.log == a.log + [Effect(s)]
    ensures Pending(r.log) == Pending(a.log)
    ensures Spoken(r.log) == Spoken(a.log)
    ensures r.muted == a.muted && r.speech == a.speech && r.webAudio == a.webAudio
    ensures r.voices == a.voices
  {
    if a.muted || !a.webAudio then a
    else
      PendingAppend(a.log, Effect(s));
      a.(log := a.log + [Effect(s)])
  }

  /** At most one utterance is ever pending: every operation of the
      service keeps that true. */
  predicate AtMostOnePending(a: AudioState) {
    |Pending(a.log)| <= 1
  }

  lemma OperationsKeepOnePending(a: AudioState, m: bool, text: string, s: Sound)
    requires AtMostOnePending(a)
    ensures AtMostOnePending(SetMute(a, m))
    ensures AtMostOnePending(ToggleMute(a).0)
    ensures AtMostOnePending(StopSpeaking(a))
    ensures AtMostOnePending(Speak(a, text))
    ensures AtMostOnePending(PlaySound(a, s))
  {
  }
}

=== FILE: content_overlay.dfy ===
/** The content overlay's two pieces of state logic: the project carousel,
    which shows three projects at a time once there are more than three,
    and the typewriter that types, pauses on, deletes and cycles through
    the role titles. Timer delays are not modelled; each timer firing is
    one discrete transition. */
module ContentOverlay {
  import opened Types

  // ---------------------------------------------------------------------------
  // carousel

  /** The number of projects on screen at once. */
  const WindowSize: nat := 3

  /** `nextProjects`: one step forward, wrapping from the last position to
      the first. The arrow buttons only appear when there are projects. */
  function Next(i: nat, n: nat): (r: nat)
    requires n > 0
    ensures r < n
    ensures i < n - 1 ==> r == i + 1
    ensures i == n - 1 ==> r == 0
  {
    (i + 1) % n
  }

  /** `prevProjects`: one step back, wrapping from the first position to
      the last. */
  function Prev(i: nat, n: nat): (r: nat)
    requires n > 0
    ensures r < n
    ensures 0 < i < n ==> r == i - 1
    ensures i == 0 ==> r == n - 1
  {
    (i - 1 + n) % n
  }

  /** On the positions of the list, `Prev` undoes `Next` and `Next` undoes
      `Prev`. */
  lemma NextPrevInverse(i: nat, n: nat)
    requires 0 <= i < n
    ensures Prev(Next(i, n), n) == i
    ensures Next(Prev(i, n), n) == i
  {
  }

  /** `visibleProjects`: three consecutive projects, wrapping around, from
      the current position when there are more than three; otherwise the
      whole list. */
  function Visible(ps: seq<Project>, index: nat): (r: seq<Project>)
    ensures |ps| > WindowSize ==> |r| == WindowSize
    ensures |ps| > WindowSize ==> forall k :: 0 <= k < WindowSize ==> r[k] == ps[(index + k) % |ps|]
    ensures |ps| <= WindowSize ==> r == ps
  {
    var n := |ps|;
    if n > WindowSize then
      [ps[index % n], ps[(index + 1) % n], ps[(index + 2) % n]]
    else ps
  }

  /** The three positions on screen are pairwise distinct, so no project
      is shown twice when the list holds no duplicates. */
  lemma WindowPositionsDistinct(n: nat, index: nat)
    requires n > WindowSize
    ensures index % n != (index + 1) % n
    ensures index % n != (index + 2) % n
    ensures (index + 1) % n != (index + 2) % n
  {
    ModSucc(index, n);
    ModSucc(index + 1, n);
  }

  /** The remainder of `q * n + r` by `n` is `r` when `r` is below `n`. */
  lemma ModUnique(a: int, q: int, r: int, n: int)
    requires n > 0 && 0 <= r < n && a == q * n + r
    ensures a % n == r
  {
    var k := a / n - q;
    assert k * n == r - a % n;
    assert k == 0 by {
      NoSmallMultiple(k, n);
    }
  }

  /** The only multiple of `n` strictly between `-n` and `n` is zero. */
  lemma NoSmallMultiple(k: int, n: int)
    requires n > 0 && -n < k * n < n
    ensures k == 0
  {
    if k > 0 {
      MulMonotone(k, n);
    } else if k < 0 {
      MulMonotone(-k, n);
    }
  }

  lemma MulMonotone(k: int, n: int)
    requires k >= 1 && n > 0
    ensures k * n >= n
  {
  }

  /** The position after `x`, taken modulo `n`, is one more than `x`'s
      position, or 0 after the last one. */
  lemma ModSucc(x: nat, n: nat)
    requires n > 0
    ensures (x + 1) % n == if x % n + 1 < n then x % n + 1 else 0
  {
    var q := x / n;
    var r := x % n;
    if r + 1 < n {
      ModUnique(x + 1, q, r + 1, n);
    } else {
      ModUnique(x + 1, q + 1, 0, n);
    }
  }

  /** Stepping forward slides the window by one: the last two projects on
      screen become the first two. */
  lemma NextSlidesWindow(ps: seq<Project>, index: nat)
    requires |ps| > WindowSize
    ensures Visible(ps, Next(index, |ps|))[0] == Visible(ps, index)[1]
    ensures Visible(ps, Next(index, |ps|))[1] == Visible(ps, index)[2]
  {
    var n := |ps|;
    var j := Next(index, n);
    ModUnique(j, 0, j, n);
    ModSucc(index + 1, n);
    ModSucc(j, n);
  }

  // ---------------------------------------------------------------------------
  // typewriter

  const Roles: seq<string> := ["DEVELOPER", "DESIGNER", "TECH ENTHUSIAST"]

  /** The typewriter's state. `pausePending` records that the pause timer
      which switches to deleting has been started and has not fired yet. */
  datatype Typewriter = Typewriter(currentRole: string, isDeleting: bool, textIndex: nat, pausePending: bool)

  const InitialTypewriter: Typewriter := Typewriter("", false, 0, false)

  function Clamp(x: int, lo: int, hi: int): int
    requires lo <= hi
  {
    if x < lo then lo else if x > hi then hi else x
  }

  /** `String.prototype.substring`: both bounds are clamped into the string
      and swapped if out of order. */
  function Substring(s: string, start: int, end: int): (r: string)
    ensures start == 0 && 0 <= end <= |s| ==> r == s[..end]
    ensures start == 0 && end < 0 ==> r == []
    ensures start == 0 && end > |s| ==> r == s
    ensures 0 <= start <= end <= |s| ==> r == s[start..end]
  {
    var a := Clamp(start, 0, |s|);
    var b := Clamp(end, 0, |s|);
    if a <= b then s[a..b] else s[b..a]
  }

  /** One run of `handleTyping`: type or delete one character; on reaching
      the full text while typing, start the pause timer; on reaching the
      empty text while deleting, switch to typing the next role. */
  function Step(t: Typewriter): (r: Typewriter)
    requires t.textIndex < |Roles|
    ensures r.textIndex < |Roles| && r.currentRole <= Roles[r.textIndex]
    ensures r.isDeleting ==> t.isDeleting
    ensures r.textIndex != t.textIndex ==>
              t.isDeleting && t.currentRole == [] && r.textIndex == (t.textIndex + 1) % |Roles|
    ensures r.pausePending && !t.pausePending ==> !t.isDeleting && t.currentRole == Roles[t.textIndex]
  {
    var full := Roles[t.textIndex];
    var next := if t.isDeleting then Substring(full, 0, |t.currentRole| - 1)
                else Substring(full, 0, |t.currentRole| + 1);
    if !t.isDeleting && t.currentRole == full then
      t.(currentRole := next, pausePending := true)
    else if t.isDeleting && t.currentRole == [] then
      t.(currentRole := next, isDeleting := false, textIndex := (t.textIndex + 1) % |Roles|)
    else
      t.(currentRole := next)
  }

  /** The pause timer firing: switches to deleting, and does nothing when
      no pause is pending. */
  function Elapse(t: Typewriter): (r: Typewriter)
    ensures r.isDeleting <==> t.isDeleting || t.pausePending
    ensures !r.pausePending
    ensures r.currentRole == t.currentRole && r.textIndex == t.textIndex
  {
    if t.pausePending then t.(isDeleting := true, pausePending := false) else t
  }

  /** The typewriter's invariant: the index names a role, the text on
      screen is a prefix of that role, and a pending pause only exists
      while the full role is shown in the typing phase. */
  predicate Inv(t: Typewriter) {
    && t.textIndex < |Roles|
    && t.currentRole <= Roles[t.textIndex]
    && (t.pausePending ==> !t.isDeleting && t.currentRole == Roles[t.textIndex])
  }

  lemma InitialInv()
    ensures Inv(InitialTypewriter)
  {
  }

  /** Both transitions keep the invariant. */
  lemma TransitionsKeepInv(t: Typewriter)
    requires Inv(t)
    ensures Inv(Step(t))
    ensures Inv(Elapse(t))
  {
    var full := Roles[t.textIndex];
    if !t.isDeleting && t.currentRole != full {
      assert |t.currentRole| < |full|;
      assert full[..|t.currentRole| + 1][..|t.currentRole|] == t.currentRole;
    }
  }

  /** A typing step short of the full text shows one more character of
      the role; a deleting step above the empty text shows one fewer; the
      text is a prefix of the role throughout. */
  lemma StepMovesOneCharacter(t: Typewriter)
    requires Inv(t)
    ensures !t.isDeleting && t.currentRole != Roles[t.textIndex] ==>
              Step(t).currentRole == Roles[t.textIndex][..|t.currentRole| + 1]
              && Step(t).textIndex == t.textIndex && !Step(t).isDeleting
    ensures t.isDeleting && t.currentRole != [] ==>
              Step(t).currentRole == Roles[t.textIndex][..|t.currentRole| - 1]
              && Step(t).textIndex == t.textIndex && Step(t).isDeleting
  {
    var full := Roles[t.textIndex];
    if !t.isDeleting && t.currentRole != full {
      assert |t.currentRole| < |full|;
    }
  }

  /** Deleting down to nothing returns to typing and moves on to the next
      role, wrapping after the last; the index never leaves the roles. */
  lemma DeletedOutWraps(t: Typewriter)
    requires Inv(t)
    requires t.isDeleting && t.currentRole == []
    ensures Step(t).currentRole == [] && !Step(t).isDeleting
    ensures Step(t).textIndex == (t.textIndex + 1) % 3
    ensures Step(t).textIndex < 3
  {
  }

  /** The full role shown while typing is the only state from which the
      deleting phase is entered: a step never starts deleting, and the
      pause timer that does is only ever started at the full role. */
  lemma DeletingOnlyAfterFullText(t: Typewriter)
    requires Inv(t)
    ensures !t.isDeleting ==> !Step(t).isDeleting
    ensures !t.isDeleting && Elapse(t).isDeleting ==> t.currentRole == Roles[t.textIndex]
    ensures !t.pausePending && Step(t).pausePending ==>
              !t.isDeleting && t.currentRole == Roles[t.textIndex]
  {
  }

  /** The two timers the typewriter runs on. */
  datatype Firing = Tick | PauseOver

  /** Any sequence of timer firings, each either a typing tick or the
      pause timer running out, keeps the invariant. */
  function Run(t: Typewriter, firings: seq<Firing>): (r: Typewriter)
    requires Inv(t)
    ensures Inv(r)
    decreases |firings|
  {
    TransitionsKeepInv(t);
    if firings == [] then t
    else Run(if firings[0] == Tick then Step(t) else Elapse(t), firings[1..])
  }

  /** `k` consecutive typing ticks. */
  function Steps(t: Typewriter, k: nat): (r: Typewriter)
    requires Inv(t)
    ensures Inv(r)
    decreases k
  {
    TransitionsKeepInv(t);
    if k == 0 then t else Steps(Step(t), k - 1)
  }

  /** Typing from any prefix reaches the full role after as many steps as
      characters are missing, without changing role or phase. */
  lemma {:induction false} TypingReachesFullRole(t: Typewriter)
    requires Inv(t) && !t.isDeleting
    ensures var r := Steps(t, |Roles[t.textIndex]| - |t.currentRole|);
            r.currentRole == Roles[t.textIndex] && r.textIndex == t.textIndex && !r.isDeleting
            && r.pausePending == t.pausePending
    decreases |Roles[t.textIndex]| - |t.currentRole|
  {
    var full := Roles[t.textIndex];
    if t.currentRole != full {
      StepMovesOneCharacter(t);
      TransitionsKeepInv(t);
      var u := Step(t);
      TypingReachesFullRole(u);
      assert |full| - |t.currentRole| == (|full| - |u.currentRole|) + 1;
    } else {
      assert |full| - |t.currentRole| == 0;
    }
  }

  /** Deleting from any prefix empties the text after as many steps as it
      has characters, without changing role or phase. */
  lemma {:induction false} DeletingReachesEmpty(t: Typewriter)
    requires Inv(t) && t.isDeleting
    ensures var r := Steps(t, |t.currentRole|);
            r.currentRole == [] && r.textIndex == t.textIndex && r.isDeleting && !r.pausePending
    decreases |t.currentRole|
  {
    if t.currentRole != [] {
      StepMovesOneCharacter(t);
      TransitionsKeepInv(t);
      var u := Step(t);
      DeletingReachesEmpty(u);
      assert |t.currentRole| == |u.currentRole| + 1;
    }
  }

  /** `k` typing ticks in a row. */
  function Ticks(k: nat): (f: seq<Firing>)
    ensures |f| == k && forall i :: 0 <= i < k ==> f[i] == Tick
  {
    seq(k, i => Tick)
  }

  /** Running a list of ticks is stepping that many times. */
  lemma {:induction false} RunTicks(t: Typewriter, k: nat)
    requires Inv(t)
    ensures Run(t, Ticks(k)) == Steps(t, k)
    decreases k
  {
    if k > 0 {
      TransitionsKeepInv(t);
      assert Ticks(k)[1..] == Ticks(k - 1);
      RunTicks(Step(t), k - 1);
    }
  }

  /** Running two lists of firings one after the other is running their
      concatenation. */
  lemma {:induction false} RunConcat(t: Typewriter, f: seq<Firing>, g: seq<Firing>)
    requires Inv(t)
    ensures Run(t, f + g) == Run(Run(t, f), g)
    decreases |f|
  {
    if f == [] {
      assert f + g == g;
    } else {
      TransitionsKeepInv(t);
      assert (f + g)[0] == f[0];
      assert (f + g)[1..] == f[1..] + g;
      RunConcat(if f[0] == Tick then Step(t) else Elapse(t), f[1..], g);
    }
  }

  /** Typing out a role from the empty text takes one tick per
      character and leaves no pause pending yet. */
  lemma TypeOut(t: Typewriter)
    requires Inv(t) && t.currentRole == [] && !t.isDeleting && !t.pausePending
    ensures Run(t, Ticks(|Roles[t.textIndex]|)) == Typewriter(Roles[t.textIndex], false, t.textIndex, false)
  {
    TypingReachesFullRole(t);
    RunTicks(t, |Roles[t.textIndex]|);
  }

  /** At the full role, one more tick starts the pause and the pause
      running out starts deleting. */
  lemma PauseThenDelete(i: nat)
    requires i < |Roles|
    ensures Run(Typewriter(Roles[i], false, i, false), [Tick, PauseOver]) == Typewriter(Roles[i], true, i, false)
  {
    var t1 := Typewriter(Roles[i], false, i, false);
    TransitionsKeepInv(t1);
    var t2 := Step(t1);
    assert t2 == Typewriter(Roles[i], false, i, true);
    TransitionsKeepInv(t2);
    assert [Tick, PauseOver][1..] == [PauseOver];
    assert [PauseOver][1..] == [];
  }

  /** Deleting the full role takes one tick per character, and one more
      tick moves on to typing the next role. */
  lemma DeleteOut(i: nat)
    requires i < |Roles|
    ensures Run(Typewriter(Roles[i], true, i, false), Ticks(|Roles[i]| + 1))
              == Typewriter([], false, (i + 1) % |Roles|, false)
  {
    var t3 := Typewriter(Roles[i], true, i, false);
    var n := |Roles[i]|;
    DeletingReachesEmpty(t3);
    StepsThenOne(t3, n);
    RunTicks(t3, n + 1);
  }

  /** Typing a role out and pausing leaves the full role shown in the
      deleting phase. */
  lemma TypeOutAndPause(t: Typewriter)
    requires Inv(t) && t.currentRole == [] && !t.isDeleting && !t.pausePending
    ensures Run(t, Ticks(|Roles[t.textIndex]|) + [Tick, PauseOver])
              == Typewriter(Roles[t.textIndex], true, t.textIndex, false)
  {
    TypeOut(t);
    PauseThenDelete(t.textIndex);
    InvOfFull(t.textIndex);
    RunConcat(t, Ticks(|Roles[t.textIndex]|), [Tick, PauseOver]);
  }

  /** One full cycle of the title: from an empty text typing role i, type
      the whole role, pause, delete it and take one more tick; the
      typewriter is then empty and typing role i + 1, wrapping after the
      last role. */
  lemma FullCycle(t: Typewriter)
    requires Inv(t) && t.currentRole == [] && !t.isDeleting && !t.pausePending
    ensures var n := |Roles[t.textIndex]|;
            Run(t, Ticks(n) + [Tick, PauseOver] + Ticks(n + 1))
              == Typewriter([], false, (t.textIndex + 1) % |Roles|, false)
  {
    var i := t.textIndex;
    var front := Ticks(|Roles[i]|) + [Tick, PauseOver];
    TypeOutAndPause(t);
    DeleteOut(i);
    RunConcat(t, front, Ticks(|Roles[i]| + 1));
  }

  lemma InvOfFull(i: nat)
    requires i < |Roles|
    ensures Inv(Typewriter(Roles[i], false, i, false))
  {
  }

  /** One more step after `k` steps is `k + 1` steps. */
  lemma {:induction false} StepsThenOne(t: Typewriter, k: nat)
    requires Inv(t)
    ensures Inv(Steps(t, k)) && Steps(t, k + 1) == Step(Steps(t, k))
    decreases k
  {
    TransitionsKeepInv(t);
    if k > 0 {
      StepsThenOne(Step(t), k - 1);
    }
  }
}

=== FILE: cv_service.dfy ===
/** The client-side CV store: one uploaded file kept in an IndexedDB object
    store under the single key 'current', and a version counter kept in
    `localStorage` under 'cv_version'. */
module CvService {
  import opened Types
  import opened Storage

  const CurrentKey: string := "current"
  const VersionKey: string := "cv_version"

  /** What `getCV` hands back: the file with its name and MIME type. */
  datatype CvView = CvView(file: CvFile, name: string, mimeType: string)

  /** `saveCV`: stores the file under 'current', replacing any earlier
      upload; `now` is the clock reading `Date.now()` supplies. */
  function SaveCV(b: Browser, f: CvFile, now: int): (r: Browser)
    ensures GetCV(r) == Some(CvView(f, f.name, f.mimeType))
    ensures r.local == b.local && r.events == b.events
    ensures r.cvStore.Keys == b.cvStore.Keys + {CurrentKey}
    ensures forall k :: k != CurrentKey && k in b.cvStore ==> k in r.cvStore && r.cvStore[k] == b.cvStore[k]
  {
    b.(cvStore := b.cvStore[CurrentKey := CvEntry(f, f.name, f.mimeType, now)])
  }

  /** `getCV`: the stored upload, or `None` for `null` when there is none. */
  function GetCV(b: Browser): (r: Option<CvView>)
    ensures r.Some? <==> CurrentKey in b.cvStore
    ensures r.Some? ==> r.value.file == b.cvStore[CurrentKey].file
                        && r.value.name == b.cvStore[CurrentKey].name
                        && r.value.mimeType == b.cvStore[CurrentKey].mimeType
  {
    if CurrentKey in b.cvStore then
      var e := b.cvStore[CurrentKey];
      Some(CvView(e.file, e.name, e.mimeType))
    else None
  }

  /** `deleteCV`: forgets the upload. */
  function DeleteCV(b: Browser): (r: Browser)
    ensures GetCV(r) == None
    ensures r.local == b.local && r.events == b.events
  {
    b.(cvStore := b.cvStore - {CurrentKey})
  }

  /** A second save overwrites the first: only the latest file is read
      back. */
  lemma SecondSaveOverwrites(b: Browser, f1: CvFile, t1: int, f2: CvFile, t2: int)
    ensures GetCV(SaveCV(SaveCV(b, f1, t1), f2, t2)) == GetCV(SaveCV(b, f2, t2))
    ensures GetCV(SaveCV(SaveCV(b, f1, t1), f2, t2)).value.file == f2
  {
  }

  /** `getCVVersion`: the stored number, or 1 when nothing (or the empty
      string) is stored. A stored "0" is truthy, so 0 is returned as is. */
  function GetCVVersion(b: Browser): (v: Num)
    ensures !Truthy(GetItem(b, VersionKey)) ==> v == Int(1)
    ensures Truthy(GetItem(b, VersionKey)) ==> v == ParseInt(b.local[VersionKey])
    ensures GetItem(b, VersionKey) == Some(NumeralText(0)) ==> v == Int(0)
  {
    var stored := GetItem(b, VersionKey);
    if Truthy(stored) then ParseInt(stored.value) else Int(1)
  }

  /** JavaScript's `+ 1` on a number: NaN stays NaN. */
  function Succ(x: Num): (y: Num)
    ensures x.Int? <==> y.Int?
    ensures x.Int? ==> y.n == x.n + 1
  {
    match x
    case Int(n) => Int(n + 1)
    case NaN => NaN
  }

  /** `bumpCVVersion`: the new browser state and the version it returns,
      one more than the one read before. */
  function BumpCVVersion(b: Browser): (r: (Browser, Num))
    ensures r.1 == Succ(GetCVVersion(b))
    ensures GetCVVersion(r.0) == r.1
    ensures forall k :: k != VersionKey ==> GetItem(r.0, k) == GetItem(b, k)
    ensures r.0.cvStore == b.cvStore && r.0.events == b.events
  {
    var v := Succ(GetCVVersion(b));
    (SetItem(b, VersionKey, NumText(v)), v)
  }

  /** `setCVVersion`: afterwards `getCVVersion` reports exactly `n`. */
  function SetCVVersion(b: Browser, n: int): (r: Browser)
    ensures GetCVVersion(r) == Int(n)
    ensures forall k :: k != VersionKey ==> GetItem(r, k) == GetItem(b, k)
    ensures r.cvStore == b.cvStore && r.events == b.events
  {
    SetItem(b, VersionKey, NumText(Int(n)))
  }

  /** On a fresh profile the first bump yields version 2, and every bump
      after a `setCVVersion(n)` counts on from `n`. */
  lemma BumpCountsOn(b: Browser, n: int)
    ensures BumpCVVersion(EmptyBrowser).1 == Int(2)
    ensures BumpCVVersion(SetCVVersion(b, n)).1 == Int(n + 1)
    ensures BumpCVVersion(BumpCVVersion(SetCVVersion(b, n)).0).1 == Int(n + 2)
  {
  }
}

=== FILE: data_service.dfy ===
/** The content service: project and skill lists kept in `localStorage`
    under two keys, falling back to the built-in defaults, with a
    'dataUpdated' event after every write, and the plain-text digest of
    the content handed to the chat model. */
module DataService {
  import opened Types
  import opened Text
  import opened Storage
  import opened Defaults
  import opened Digest

  const ProjectKey: string := "stark_folio_projects"
  const SkillKey: string := "stark_folio_skills"

  /** `getProjects`: the stored list, or the defaults when nothing usable
      is stored. */
  function GetProjects(b: Browser): (ps: seq<Project>)
    ensures !Truthy(GetItem(b, ProjectKey)) ==> ps == DefaultProjects
    ensures Truthy(GetItem(b, ProjectKey)) && DecodeProjects(b.local[ProjectKey]).None?
            ==> ps == DefaultProjects
    ensures Truthy(GetItem(b, ProjectKey)) && DecodeProjects(b.local[ProjectKey]).Some?
            ==> ps == DecodeProjects(b.local[ProjectKey]).value
  {
    var stored := GetItem(b, ProjectKey);
    if !Truthy(stored) then DefaultProjects
    else
      match DecodeProjects(stored.value)
      case Some(ps) => ps
      case None => DefaultProjects
  }

  /** `saveProjects`: writes the list and announces the change. */
  function SaveProjects(b: Browser, ps: seq<Project>): (r: Browser)
    ensures GetProjects(r) == ps
    ensures GetItem(r, SkillKey) == GetItem(b, SkillKey)
    ensures forall k :: k != ProjectKey ==> GetItem(r, k) == GetItem(b, k)
    ensures r.cvStore == b.cvStore
    ensures r.events == b.events + [DataUpdated]
  {
    Dispatch(SetItem(b, ProjectKey, EncodeProjects(ps)), DataUpdated)
  }

  /** `getSkills`: the stored list, or the defaults when nothing usable is
      stored. */
  function GetSkills(b: Browser): (ss: seq<Skill>)
    ensures !Truthy(GetItem(b, SkillKey)) ==> ss == DefaultSkills
    ensures Truthy(GetItem(b, SkillKey)) && DecodeSkills(b.local[SkillKey]).None?
            ==> ss == DefaultSkills
    ensures Truthy(GetItem(b, SkillKey)) && DecodeSkills(b.local[SkillKey]).Some?
            ==> ss == DecodeSkills(b.local[SkillKey]).value
  {
    var stored := GetItem(b, SkillKey);
    if !Truthy(stored) then DefaultSkills
    else
      match DecodeSkills(stored.value)
      case Some(ss) => ss
      case None => DefaultSkills
  }

  /** `saveSkills`: writes the list and announces the change. */
  function SaveSkills(b: Browser, ss: seq<Skill>): (r: Browser)
    ensures GetSkills(r) == ss
    ensures GetItem(r, ProjectKey) == GetItem(b, ProjectKey)
    ensures forall k :: k != SkillKey ==> GetItem(r, k) == GetItem(b, k)
    ensures r.cvStore == b.cvStore
    ensures r.events == b.events + [DataUpdated]
  {
    Dispatch(SetItem(b, SkillKey, EncodeSkills(ss)), DataUpdated)
  }

  /** `resetData`: forgets both lists, so both getters fall back to the
      defaults, and announces the change once. */
  function ResetData(b: Browser): (r: Browser)
    ensures GetProjects(r) == DefaultProjects
    ensures GetSkills(r) == DefaultSkills
    ensures forall k :: k != ProjectKey && k != SkillKey ==> GetItem(r, k) == GetItem(b, k)
    ensures r.cvStore == b.cvStore
    ensures r.events == b.events + [DataUpdated]
  {
    Dispatch(RemoveItem(RemoveItem(b, ProjectKey), SkillKey), DataUpdated)
  }

  /** Saving projects leaves the skills a reader sees unchanged, and saving
      skills leaves the projects unchanged. */
  lemma SavesAreIndependent(b: Browser, ps: seq<Project>, ss: seq<Skill>)
    ensures GetSkills(SaveProjects(b, ps)) == GetSkills(b)
    ensures GetProjects(SaveSkills(b, ss)) == GetProjects(b)
  {
  }

  /** A later save of the same list wins over an earlier one: the getter
      only ever sees the last write. */
  lemma LastSaveWins(b: Browser, ps1: seq<Project>, ps2: seq<Project>)
    ensures GetProjects(SaveProjects(SaveProjects(b, ps1), ps2)) == ps2
    ensures |SaveProjects(SaveProjects(b, ps1), ps2).events| == |b.events| + 2
  {
  }

  // ---------------------------------------------------------------------------
  // getPortfolioContext

  /** `getPortfolioContext`: the digest of whatever the getters return. */
  function PortfolioContext(b: Browser): (r: string)
    ensures |Split(r, '\n')| >= 9
  {
    ContextText(GetProjects(b), GetSkills(b))
  }

  /** The digest follows the store: after a save it shows the saved list
      next to the other list as stored, and after a reset it shows the
      defaults. */
  lemma ContextFollowsStore(b: Browser, ps: seq<Project>, ss: seq<Skill>)
    ensures PortfolioContext(SaveProjects(b, ps)) == ContextText(ps, GetSkills(b))
    ensures PortfolioContext(SaveSkills(b, ss)) == ContextText(GetProjects(b), ss)
    ensures PortfolioContext(ResetData(b)) == ContextText(DefaultProjects, DefaultSkills)
  {
    SavesAreIndependent(b, ps, ss);
  }
}

=== FILE: defaults.dfy ===
/** The built-in content shown until an administrator saves anything. */
module Defaults {
  import opened Types

  /** The portfolio never shows fewer projects than this; the admin panel
      refuses deletes that would go below it. */
  const MinProjects: nat := 3

  const DefaultSkills: seq<Skill> := [
    Skill("React & TypeScript", 95, Frontend),
    Skill("Three.js / R3F", 85, ThreeD),
    Skill("Node.js", 80, Backend),
    Skill("Tailwind CSS", 90, Frontend),
    Skill("UI/UX Design", 75, Design),
    Skill("GSAP Animation", 85, Frontend)
  ]

  const DefaultProjects: seq<Project> := [
    Project("1", "Holo-Interface",
      "A VR-ready dashboard simulating futuristic HUD interfaces.",
      ["React", "Three.js", "WebXR"],
      "https://picsum.photos/600/400?random=1", "#",
      Some("Sir, the Holo-Interface is a WebXR experiment designed to replicate the Mark 85 HUD. It features spatial tracking, gesture recognition, and real-time data visualization using Three.js. It allows users to manipulate data streams in a 3D space.")),
    Project("2", "Nexus E-Comm",
      "High-performance ecommerce platform with 3D product previews.",
      ["Next.js", "WebGL", "Stripe"],
      "https://picsum.photos/600/400?random=2", "#",
      Some("Nexus is a next-generation commerce platform. I integrated a custom WebGL viewer allowing customers to inspect products in 360 degrees. The backend handles high-frequency transactions with the speed of a repulsor blast.")),
    Project("3", "Jarvis LLM",
      "Local LLM integration for smart home control via voice.",
      ["Python", "TensorFlow", "React Native"],
      "https://picsum.photos/600/400?random=3", "#",
      Some("A personal homage to my own source code. This project runs a quantized Llama-3 model locally to control IoT devices. It features latency below 200ms and understands context-aware commands just like I do."))
  ]

  /** The defaults hold exactly the minimum number of projects, with
      distinct ids, which is what the admin delete guard relies on. */
  lemma DefaultProjectsShape()
    ensures |DefaultProjects| == MinProjects
    ensures UniqueIds(DefaultProjects)
  {
    assert DefaultProjects[0].id == "1" && DefaultProjects[1].id == "2" && DefaultProjects[2].id == "3";
  }
}

=== FILE: digest.dfy ===
/** The plain-text digest `getPortfolioContext` hands to the chat model:
    a fixed header, one line per skill and one line per project, rendered
    as the template literals render them. */
module Digest {
  import opened Types
  import opened Text

  /** A template literal's rendering of an optional string: `undefined`
      when absent. */
  function OrUndefined(s: Option<string>): string {
    match s
    case Some(t) => t
    case None => "undefined"
  }

  /** The decimal digits of a natural number. */
  function NatToString(n: nat): (r: string)
    ensures |r| >= 1
    ensures forall i :: 0 <= i < |r| ==> '0' <= r[i] <= '9'
  {
    var d := ['0' + (n % 10) as char];
    if n < 10 then d else NatToString(n / 10) + d
  }

  /** How a template literal renders an integer. */
  function IntToString(n: int): (r: string)
    ensures '\n' !in r
  {
    if n < 0 then "-" + NatToString(-n) else NatToString(n)
  }

  function ProjectLine(p: Project): string {
    "Project: " + p.title + " (Tech: " + Join(p.tech, ", ") + "). Desc: " + p.description
    + ". Full Details: " + OrUndefined(p.longDescription)
  }

  function SkillLine(s: Skill): string {
    "Skill: " + s.name + " (" + IntToString(s.level) + "%) - " + s.category.Name()
  }

  function ProjectLines(ps: seq<Project>): (r: seq<string>)
    ensures |r| == |ps|
    ensures forall i :: 0 <= i < |ps| ==> r[i] == ProjectLine(ps[i])
  {
    seq(|ps|, i requires 0 <= i < |ps| => ProjectLine(ps[i]))
  }

  function SkillLines(ss: seq<Skill>): (r: seq<string>)
    ensures |r| == |ss|
    ensures forall i :: 0 <= i < |ss| ==> r[i] == SkillLine(ss[i])
  {
    seq(|ss|, i requires 0 <= i < |ss| => SkillLine(ss[i]))
  }

  const Title: string := "  CURRENT PORTFOLIO DATA " + "(DYNAMICALLY UPDATED):"
  const SkillsTitle: string := "  [SKILLS / TECH STACK]"
  const ProjectsTitle: string := "  [PROJECTS]"
  const SkillsHeading: string := "\n" + Title + "\n" + "  " + "\n" + SkillsTitle + "\n" + "  "
  const ProjectsHeading: string := "\n" + "  " + "\n" + ProjectsTitle + "\n" + "  "
  const Trailer: string := "\n" + "  "

  /** Appending a line and a line break to a text adds one newline to
      the ones it holds. */
  lemma {:induction false} BreakAfter(before: string, line: string)
    requires '\n' !in line
    ensures Occurrences(before + line + "\n", '\n') == Occurrences(before, '\n') + 1
  {
    var nl := Occurrences("\n", '\n');
    assert nl == 1;
    OccurrencesConcat(before, line, '\n');
    OccurrencesConcat(before + line, "\n", '\n');
  }

  /** The fixed parts of the digest: four newlines before the skills,
      three between the blocks and one after the projects. */
  lemma HeadingNewlines()
    ensures Occurrences(SkillsHeading, '\n') == 4
    ensures Occurrences(ProjectsHeading, '\n') == 3
    ensures Occurrences(Trailer, '\n') == 1
  {
    SkillsHeadingNewlines();
    ProjectsHeadingNewlines();
    BreakAfter([], []);
    assert [] + [] + "\n" == "\n";
    OccurrencesConcat("\n", "  ", '\n');
  }

  lemma SkillsHeadingNewlines()
    ensures Occurrences(SkillsHeading, '\n') == 4
  {
    assert '\n' !in "  CURRENT PORTFOLIO DATA ";
    assert '\n' !in "(DYNAMICALLY UPDATED):";
    assert '\n' !in Title && '\n' !in SkillsTitle && '\n' !in "  ";
    BreakAfter([], []);
    assert [] + [] + "\n" == "\n";
    BreakAfter("\n", Title);
    BreakAfter("\n" + Title + "\n", "  ");
    BreakAfter("\n" + Title + "\n" + "  " + "\n", SkillsTitle);
    OccurrencesConcat("\n" + Title + "\n" + "  " + "\n" + SkillsTitle + "\n", "  ", '\n');
  }

  lemma ProjectsHeadingNewlines()
    ensures Occurrences(ProjectsHeading, '\n') == 3
  {
    assert '\n' !in ProjectsTitle && '\n' !in "  ";
    BreakAfter([], []);
    assert [] + [] + "\n" == "\n";
    BreakAfter("\n", "  ");
    BreakAfter("\n" + "  " + "\n", ProjectsTitle);
    OccurrencesConcat("\n" + "  " + "\n" + ProjectsTitle + "\n", "  ", '\n');
  }

  /** Newlines of the whole digest: the fixed eight plus those of the two
      blocks. */
  lemma ContextNewlines(skillBlock: string, projectBlock: string)
    ensures Occurrences(SkillsHeading + skillBlock + ProjectsHeading + projectBlock + Trailer, '\n')
            == 8 + Occurrences(skillBlock, '\n') + Occurrences(projectBlock, '\n')
  {
    HeadingNewlines();
    OccurrencesConcat(SkillsHeading, skillBlock, '\n');
    OccurrencesConcat(SkillsHeading + skillBlock, ProjectsHeading, '\n');
    OccurrencesConcat(SkillsHeading + skillBlock + ProjectsHeading, projectBlock, '\n');
    OccurrencesConcat(SkillsHeading + skillBlock + ProjectsHeading + projectBlock, Trailer, '\n');
  }

  /** The text of `getPortfolioContext` for given lists: a fixed header,
      the skill block and the project block, each block one line per
      entry joined with newlines. Read back line by line it has seven
      fixed lines plus one per block entry (an empty block still takes
      one line), provided no entry's line holds a newline of its own. */
  function ContextText(ps: seq<Project>, ss: seq<Skill>): (r: string)
    ensures |Split(r, '\n')| >= 9
    ensures SingleLine(SkillLines(ss)) && SingleLine(ProjectLines(ps)) ==>
              |Split(r, '\n')| == 7 + (if ss == [] then 1 else |ss|) + (if ps == [] then 1 else |ps|)
  {
    var r := SkillsHeading + Join(SkillLines(ss), "\n") + ProjectsHeading + Join(ProjectLines(ps), "\n") + Trailer;
    SplitCount(r, '\n');
    ContextNewlines(Join(SkillLines(ss), "\n"), Join(ProjectLines(ps), "\n"));
    if SingleLine(SkillLines(ss)) && SingleLine(ProjectLines(ps)) then
      JoinLineCount(SkillLines(ss));
      JoinLineCount(ProjectLines(ps));
      r
    else r
  }

  /** No part of a string list contains a newline. */
  predicate SingleLine(parts: seq<string>) {
    forall k :: 0 <= k < |parts| ==> '\n' !in parts[k]
  }

  /** A skill's line is a single line exactly when its name is: the level
      and the category never contribute a newline. */
  lemma SkillLineSingle(s: Skill)
    ensures '\n' !in SkillLine(s) <==> '\n' !in s.name
  {
    var tail := " (" + IntToString(s.level) + "%) - " + s.category.Name();
    assert SkillLine(s) == "Skill: " + s.name + tail;
    assert '\n' !in tail;
  }

  /** A newline-joined block of single-line entries holds one newline
      fewer than it has entries, and none when it is empty. */
  lemma {:induction false} JoinLineCount(lines: seq<string>)
    requires SingleLine(lines)
    ensures Occurrences(Join(lines, "\n"), '\n') == if lines == [] then 0 else |lines| - 1
  {
    if |lines| >= 2 {
      assert SingleLine(lines[1..]) by {
        forall k | 0 <= k < |lines| - 1 ensures '\n' !in lines[1..][k] {
          assert lines[1..][k] == lines[k + 1];
        }
      }
      JoinLineCount(lines[1..]);
      assert Join(lines, "\n") == lines[0] + "\n" + Join(lines[1..], "\n");
      assert '\n' !in lines[0];
      OccurrencesConcat(lines[0], "\n", '\n');
      OccurrencesConcat(lines[0] + "\n", Join(lines[1..], "\n"), '\n');
    } else if |lines| == 1 {
      assert '\n' !in lines[0];
    }
  }

  /** Reading a block back line by line gives exactly one line per entry,
      in list order, when no entry's line contains a newline; an empty
      block reads back as one empty line. */
  lemma BlockLines(lines: seq<string>)
    requires SingleLine(lines)
    ensures Split(Join(lines, "\n"), '\n') == if lines == [] then [""] else lines
  {
    if lines != [] {
      assert [ '\n' ] + [] == "\n";
      SplitJoin(lines, '\n', []);
      var r := Split(Join(lines, "\n"), '\n');
      assert forall k :: 1 <= k < |lines| ==> r[k] == [] + lines[k];
      assert forall k :: 1 <= k < |lines| ==> [] + lines[k] == lines[k];
    }
  }

  /** The skill block of the context has one line per skill and the
      project block one line per project, in list order, provided no
      field the lines show holds a newline; an empty list (reachable by
      deleting every skill) leaves its block as one empty line. */
  lemma ContextBlocks(ps: seq<Project>, ss: seq<Skill>)
    requires SingleLine(ProjectLines(ps))
    requires forall i :: 0 <= i < |ss| ==> '\n' !in ss[i].name
    ensures Split(Join(SkillLines(ss), "\n"), '\n') == if ss == [] then [""] else SkillLines(ss)
    ensures Split(Join(ProjectLines(ps), "\n"), '\n') == if ps == [] then [""] else ProjectLines(ps)
  {
    forall i | 0 <= i < |ss| ensures '\n' !in SkillLines(ss)[i] {
      SkillLineSingle(ss[i]);
    }
    BlockLines(SkillLines(ss));
    BlockLines(ProjectLines(ps));
  }

  /** A long description written in the admin panel's multi-line text area
      breaks the one-line-per-project shape: a project whose description
      holds one newline gives a block of two lines. */
  lemma MultiLineDescriptionSplitsBlock(p: Project, a: string, b: string)
    requires p.longDescription == Some(a + "\n" + b)
    requires '\n' !in p.title && '\n' !in Join(p.tech, ", ") && '\n' !in p.description
    requires '\n' !in a && '\n' !in b
    ensures |Split(Join(ProjectLines([p]), "\n"), '\n')| == 2
  {
    var head := "Project: " + p.title + " (Tech: " + Join(p.tech, ", ") + "). Desc: "
                + p.description + ". Full Details: " + a;
    assert ProjectLine(p) == head + ['\n'] + b;
    assert Join(ProjectLines([p]), "\n") == ProjectLine(p);
    SplitAfterHead(head, '\n', b);
    SplitNoSeparator(b, '\n');
  }
}

=== FILE: jarvis_widget.dfy ===
/** The chat widget: a message log that starts with one greeting, a guard
    that refuses blank input and a second request while one is in flight,
    the rule that links a message to a project by its title, and the
    open/close toggle with its spoken greeting. The language model's answer
    is an input. The chat service never rejects (it turns its own errors
    into a reply text), so the widget's error branch is reached only when
    a step after the reply has been logged throws. */
module JarvisWidget {
  import opened Types
  import opened Text
  import opened Audio

  const GreetingText: string := "Greetings. J.A.R.V.I.S. online. How may I assist you today?"
  const SpokenGreeting: string := "Greetings. J.A.R.V.I.S. online."
  const ErrorText: string := "Error connecting to servers."
  const NoDetails: string := "No further details available."

  datatype Widget = Widget(
    isOpen: bool,
    messages: seq<ChatMessage>,
    input: string,
    isLoading: bool,
    showPrompt: bool,
    lastProject: Option<Project>)

  /** The widget as it mounts: closed, idle, with the greeting as the only
      message. */
  const InitialWidget: Widget :=
    Widget(false, [ChatMessage(Model, GreetingText, false)], "", false, false, None)

  /** How the request went: the service's reply text, and whether the
      matching that follows it ran through or threw (as `find` does over
      a stored project list of the wrong shape). */
  datatype Reply = Replied(text: string) | ThrewAfterReply(text: string)

  lemma InitialWidgetShape()
    ensures |InitialWidget.messages| == 1 && InitialWidget.messages[0].role == Model
    ensures !InitialWidget.isOpen && !InitialWidget.isLoading
  {
  }

  // ---------------------------------------------------------------------------
  // open / close

  /** `toggleOpen`: a click sound; closing silences speech; the state
      flips and the prompt bubble goes away; opening while the log holds
      only the greeting speaks a short greeting. */
  function ToggleOpen(w: Widget, a: AudioState): (r: (Widget, AudioState))
    ensures r.0.isOpen == !w.isOpen && !r.0.showPrompt
    ensures r.0.messages == w.messages && r.0.isLoading == w.isLoading
    ensures r.0.lastProject == w.lastProject && r.0.input == w.input
    ensures Spoken(r.1.log) == Spoken(a.log) +
              (if !w.isOpen && |w.messages| == 1 && !a.muted && a.speech then [SpokenGreeting] else [])
    ensures w.isOpen && a.speech ==> Pending(r.1.log) == []
    ensures r.1.muted == a.muted
  {
    var a1 := PlaySound(a, Click);
    var a2 := if w.isOpen then StopSpeaking(a1) else a1;
    var a3 := if !w.isOpen && |w.messages| == 1 then Speak(a2, SpokenGreeting) else a2;
    (w.(isOpen := !w.isOpen, showPrompt := false), a3)
  }

  /** Toggling twice restores the open flag and never touches the log. */
  lemma ToggleTwiceRestoresOpen(w: Widget, a: AudioState)
    ensures ToggleOpen(ToggleOpen(w, a).0, ToggleOpen(w, a).1).0.isOpen == w.isOpen
    ensures ToggleOpen(ToggleOpen(w, a).0, ToggleOpen(w, a).1).0.messages == w.messages
  {
  }

  // ---------------------------------------------------------------------------
  // project matching

  /** The title test: the lowered message contains the lowered title, or
      the other way round, or the two are equal; that is, one of the two
      occurs somewhere in the other. */
  predicate TitleMatches(lowered: string, p: Project): (b: bool)
    ensures b <==> (exists i :: OccursAt(lowered, ToLower(p.title), i))
                   || (exists i :: OccursAt(ToLower(p.title), lowered, i))
  {
    var title := ToLower(p.title);
    ContainsSelf(lowered);
    Contains(lowered, title) || Contains(title, lowered) || lowered == title
  }

  /** The equality test adds nothing to the two containment tests. */
  lemma EqualityIsContainment(lowered: string, p: Project)
    ensures TitleMatches(lowered, p) <==>
              Contains(lowered, ToLower(p.title)) || Contains(ToLower(p.title), lowered)
  {
    ContainsSelf(lowered);
  }

  /** A project with an empty title matches every message. */
  lemma EmptyTitleMatchesAll(lowered: string, p: Project)
    requires p.title == []
    ensures TitleMatches(lowered, p)
  {
    assert OccursAt(lowered, ToLower(p.title), 0);
  }

  /** `projects.find(...)`: the position of the first project that
      matches. */
  function MatchIndex(ps: seq<Project>, lowered: string): (r: Option<nat>)
    ensures r.Some? ==> r.value < |ps| && TitleMatches(lowered, ps[r.value])
    ensures r.Some? ==> forall j :: 0 <= j < r.value ==> !TitleMatches(lowered, ps[j])
    ensures r.None? ==> forall j :: 0 <= j < |ps| ==> !TitleMatches(lowered, ps[j])
  {
    if ps == [] then None
    else if TitleMatches(lowered, ps[0]) then Some(0)
    else
      match MatchIndex(ps[1..], lowered)
      case Some(k) => Some(k + 1)
      case None => None
  }

  /** The first project matching the message, if any. */
  function MatchProject(ps: seq<Project>, userMsg: string): (r: Option<Project>)
    ensures r.Some? ==> r.value in ps && TitleMatches(ToLower(userMsg), r.value)
    ensures r.None? ==> forall p :: p in ps ==> !TitleMatches(ToLower(userMsg), p)
  {
    match MatchIndex(ps, ToLower(userMsg))
    case Some(k) => Some(ps[k])
    case None => None
  }

  /** What is read aloud for a matched project: the long description, else
      the short one, else a fixed apology; empty strings count as missing. */
  function Description(p: Project): (r: string)
    ensures r != []
  {
    if p.longDescription.Some? && p.longDescription.value != [] then p.longDescription.value
    else if p.description != [] then p.description
    else NoDetails
  }

  function FoundText(title: string): string {
    "I found project \"" + title + "\". You can preview it, go to the projects section, or learn more in About."
  }

  // ---------------------------------------------------------------------------
  // processMessage

  /** The part of `processMessage` before the model is asked: blank text
      and a request already in flight are refused; otherwise a click, the
      trimmed text logged as a user message, the input cleared and the
      widget marked loading. */
  function Accept(w: Widget, a: AudioState, text: string): (r: (Widget, AudioState, bool))
    ensures !r.2 <==> AllSpace(text) || w.isLoading
    ensures !r.2 ==> r.0 == w && r.1 == a
    ensures r.2 ==> r.0.messages == w.messages + [ChatMessage(User, Trim(text), false)]
    ensures r.2 ==> r.0.input == [] && r.0.isLoading
    ensures r.2 ==> r.0.isOpen == w.isOpen && r.0.lastProject == w.lastProject
    ensures Spoken(r.1.log) == Spoken(a.log) && r.1.muted == a.muted
  {
    TrimEmptyIffBlank(text);
    if Trim(text) == [] || w.isLoading then (w, a, false)
    else
      (w.(input := [], messages := w.messages + [ChatMessage(User, Trim(text), false)], isLoading := true),
       PlaySound(a, Click), true)
  }

  /** The `catch` branch, entered after the reply has been logged: the
      reply, then one error message; no linked project. */
  function Fail(w: Widget, response: string): (r: Widget)
    ensures r.messages == w.messages + [ChatMessage(Model, response, false), ChatMessage(Model, ErrorText, true)]
    ensures r.lastProject.None? && !r.isLoading
    ensures r.isOpen == w.isOpen && r.input == w.input
  {
    w.(messages := w.messages + [ChatMessage(Model, response, false), ChatMessage(Model, ErrorText, true)],
       lastProject := None, isLoading := false)
  }

  /** A reply whose message named project `p`: the reply, then the
      follow-up naming the project, which is linked and whose description
      is read aloud. */
  function Found(w: Widget, a: AudioState, response: string, p: Project): (r: (Widget, AudioState))
    ensures r.0.messages == w.messages + [ChatMessage(Model, response, false), ChatMessage(Model, FoundText(p.title), false)]
    ensures r.0.lastProject == Some(p) && !r.0.isLoading
    ensures r.0.isOpen == w.isOpen && r.0.input == w.input
    ensures Spoken(r.1.log) == Spoken(a.log) + (if !a.muted && a.speech then [Description(p)] else [])
  {
    (w.(messages := w.messages + [ChatMessage(Model, response, false), ChatMessage(Model, FoundText(p.title), false)],
        lastProject := Some(p), isLoading := false),
     Speak(a, Description(p)))
  }

  /** A reply that named no project: the reply is logged and read aloud,
      and no project is linked. */
  function Unmatched(w: Widget, a: AudioState, response: string): (r: (Widget, AudioState))
    ensures r.0.messages == w.messages + [ChatMessage(Model, response, false)]
    ensures r.0.lastProject.None? && !r.0.isLoading
    ensures r.0.isOpen == w.isOpen && r.0.input == w.input
    ensures Spoken(r.1.log) == Spoken(a.log) + (if !a.muted && a.speech then [response] else [])
  {
    (w.(messages := w.messages + [ChatMessage(Model, response, false)], lastProject := None, isLoading := false),
     Speak(a, response))
  }

  /** The part of `processMessage` after the model has answered `reply`
      to `userMsg`, with `ps` the project list the content service returns
      at that moment. */
  function Settle(w: Widget, a: AudioState, userMsg: string, reply: Reply, ps: seq<Project>): (r: (Widget, AudioState))
    ensures !r.0.isLoading
    ensures r.0.isOpen == w.isOpen && r.0.input == w.input
    ensures |r.0.messages| > |w.messages| && r.0.messages[..|w.messages|] == w.messages
    ensures reply.ThrewAfterReply? ==> r.0 == Fail(w, reply.text) && r.1 == a
    ensures reply.Replied? ==> r.0.lastProject == MatchProject(ps, userMsg)
    ensures reply.Replied? && MatchProject(ps, userMsg).Some? ==>
              r == Found(w, a, reply.text, MatchProject(ps, userMsg).value)
    ensures reply.Replied? && MatchProject(ps, userMsg).None? ==>
              r == Unmatched(w, a, reply.text)
  {
    match reply
    case ThrewAfterReply(response) =>
      var v := Fail(w, response);
      assert v.messages[..|w.messages|] == w.messages;
      (v, a)
    case Replied(response) =>
      match MatchProject(ps, userMsg)
      case Some(p) =>
        var r := Found(w, a, response, p);
        assert r.0.messages[..|w.messages|] == w.messages;
        assert r.0.lastProject == Some(p);
        r
      case None =>
        var r := Unmatched(w, a, response);
        assert r.0.messages[..|w.messages|] == w.messages;
        r
  }

  /** `processMessage` from start to finish, with `ps` the list
      `getProjects` returns once the reply has arrived: refused input
      changes nothing; accepted input logs the trimmed message, then the
      outcome, and always ends with loading cleared. */
  function ProcessMessage(w: Widget, a: AudioState, text: string, reply: Reply, ps: seq<Project>): (r: (Widget, AudioState))
    ensures AllSpace(text) || w.isLoading ==> r == (w, a)
    ensures !(AllSpace(text) || w.isLoading) ==>
              && !r.0.isLoading
              && r.0.input == []
              && |r.0.messages| >= |w.messages| + 2
              && r.0.messages[..|w.messages| + 1] == w.messages + [ChatMessage(User, Trim(text), false)]
    ensures !(AllSpace(text) || w.isLoading) && reply.ThrewAfterReply? ==>
              r.0.messages == w.messages + [ChatMessage(User, Trim(text), false), ChatMessage(Model, reply.text, false),
                                            ChatMessage(Model, ErrorText, true)]
              && r.0.lastProject.None?
    ensures !(AllSpace(text) || w.isLoading) && reply.Replied? ==>
              r.0.lastProject == MatchProject(ps, Trim(text))
  {
    var acc := Accept(w, a, text);
    if !acc.2 then (w, a)
    else
      var msg := Trim(text);
      var logged := w.messages + [ChatMessage(User, msg, false)];
      assert |logged| == |w.messages| + 1;
      var r := Settle(acc.0, acc.1, msg, reply, ps);
      assert |r.0.messages| > |logged|;
      assert r.0.messages[..|w.messages| + 1] == logged;
      if reply.ThrewAfterReply? then
        AppendTwo(w.messages, ChatMessage(User, msg, false), ChatMessage(Model, reply.text, false),
                  ChatMessage(Model, ErrorText, true));
        r
      else r
  }

  lemma AppendTwo<T>(s: seq<T>, u: T, x: T, y: T)
    ensures (s + [u]) + [x, y] == s + [u, x, y]
  {
  }

  /** While a request is in flight, a second message is refused outright:
      the loading guard keeps requests one at a time. */
  lemma InFlightRefusesSecond(w: Widget, a: AudioState, text: string, other: string)
    requires !AllSpace(text) && !w.isLoading
    ensures var mid := Accept(w, a, text);
            Accept(mid.0, mid.1, other) == (mid.0, mid.1, false)
  {
  }

  /** A message that names a listed project's title, in any ASCII letter
      case, links some project: the first matching one, which need not be
      the one named. */
  lemma NamingAProjectLinksOne(ps: seq<Project>, userMsg: string, p: Project)
    requires p in ps
    requires Contains(ToLower(userMsg), ToLower(p.title))
    ensures MatchProject(ps, userMsg).Some?
    ensures TitleMatches(ToLower(userMsg), MatchProject(ps, userMsg).value)
  {
  }
}

=== FILE: storage.dfy ===
/** The browser facilities the services sit on: `localStorage` (string
    values under string keys), the IndexedDB object store that holds the
    uploaded CV, and the window's event queue, modelled as an append-only
    log of dispatched event names. */
module Storage {
  import opened Types

  /** A JavaScript number as the CV version code sees it: an integer, or
      NaN when `parseInt` finds no numeral. */
  datatype Num = Int(n: int) | NaN

  /** The text held under a `localStorage` key, described by what
      `JSON.parse` and `parseInt` make of it:
      - `Blank` is the empty string, which is falsy;
      - `ProjectsText` / `SkillsText` are `JSON.stringify` of a list;
      - `NumeralText(n)` is `String(n)` of an integer;
      - `NaNText` is `String(NaN)`, that is "NaN";
      - `Malformed` is any other text: not JSON and not starting with a
        numeral. */
  datatype Blob =
    | Blank
    | ProjectsText(projects: seq<Project>)
    | SkillsText(skills: seq<Skill>)
    | NumeralText(n: int)
    | NaNText
    | Malformed

  /** A `File` object: its name, MIME type and contents. */
  datatype CvFile = CvFile(name: string, mimeType: string, data: seq<bv8>)

  /** The record `saveCV` puts in the object store. */
  datatype CvEntry = CvEntry(file: CvFile, name: string, mimeType: string, time: int)

  datatype Browser = Browser(
    local: map<string, Blob>,
    cvStore: map<string, CvEntry>,
    events: seq<string>)

  /** The event every content save or reset dispatches. */
  const DataUpdated: string := "dataUpdated"

  /** A fresh browser profile: nothing stored, nothing dispatched. */
  const EmptyBrowser: Browser := Browser(map[], map[], [])

  /** `localStorage.getItem`: `None` plays the part of `null`. */
  function GetItem(b: Browser, key: string): Option<Blob> {
    if key in b.local then Some(b.local[key]) else None
  }

  /** `localStorage.setItem`. */
  function SetItem(b: Browser, key: string, v: Blob): (r: Browser)
    ensures GetItem(r, key) == Some(v)
    ensures forall k :: k != key ==> GetItem(r, k) == GetItem(b, k)
    ensures r.cvStore == b.cvStore && r.events == b.events
  {
    b.(local := b.local[key := v])
  }

  /** `localStorage.removeItem`. */
  function RemoveItem(b: Browser, key: string): (r: Browser)
    ensures GetItem(r, key) == None
    ensures forall k :: k != key ==> GetItem(r, k) == GetItem(b, k)
    ensures r.cvStore == b.cvStore && r.events == b.events
  {
    b.(local := b.local - {key})
  }

  /** `window.dispatchEvent(new Event(name))`. */
  function Dispatch(b: Browser, name: string): (r: Browser)
    ensures r.events == b.events + [name]
    ensures r.local == b.local && r.cvStore == b.cvStore
  {
    b.(events := b.events + [name])
  }

  /** Whether a `getItem` result passes the TypeScript code's `if (!stored)` test:
      `null` and the empty string are falsy, every other string is truthy. */
  predicate Truthy(v: Option<Blob>) {
    v.Some? && !v.value.Blank?
  }

  /** `parseInt` of the stored text. */
  function ParseInt(b: Blob): Num {
    match b
    case NumeralText(n) => Int(n)
    case _ => NaN
  }

  /** `String(x)` of a number, as `setItem` stores it. */
  function NumText(x: Num): (b: Blob)
    ensures ParseInt(b) == x
    ensures b != Blank
  {
    match x
    case Int(n) => NumeralText(n)
    case NaN => NaNText
  }

  /** `JSON.stringify` of a project list; `DecodeProjects` reads it back. */
  function EncodeProjects(ps: seq<Project>): (b: Blob)
    ensures DecodeProjects(b) == Some(ps)
    ensures b != Blank
  {
    ProjectsText(ps)
  }

  /** `JSON.parse` of text expected to hold a project list; `None` when
      the text does not hold one. */
  function DecodeProjects(b: Blob): Option<seq<Project>> {
    match b
    case ProjectsText(ps) => Some(ps)
    case _ => None
  }

  /** `JSON.stringify` of a skill list; `DecodeSkills` reads it back. */
  function EncodeSkills(ss: seq<Skill>): (b: Blob)
    ensures DecodeSkills(b) == Some(ss)
    ensures b != Blank
  {
    SkillsText(ss)
  }

  function DecodeSkills(b: Blob): Option<seq<Skill>> {
    match b
    case SkillsText(ss) => Some(ss)
    case _ => None
  }
}

=== FILE: text.dfy ===
/** The JavaScript string operations the components rely on:
    `includes`, `toLowerCase`, `trim`, `split` on one character and
    `Array.prototype.join`. Strings are `seq<char>`. */
module Text {

  /** The characters `String.prototype.trim` strips that this model knows:
      the ASCII white-space and line-terminator characters, the no-break
      space, the byte-order mark and the two Unicode line/paragraph
      separators. */
  predicate IsSpace(c: char) {
    c == ' ' || c == '\t' || c == '\n' || c == '\r' || c == '\U{000B}' || c == '\U{000C}'
    || c == '\U{00A0}' || c == '\U{FEFF}' || c == '\U{2028}' || c == '\U{2029}'
  }

  predicate AllSpace(s: string) {
    forall i :: 0 <= i < |s| ==> IsSpace(s[i])
  }

  /** A string with no white space at either end. */
  predicate Trimmed(s: string) {
    s == [] || (!IsSpace(s[0]) && !IsSpace(s[|s| - 1]))
  }

  // ---------------------------------------------------------------------------
  // trim

  /** `trimStart`: drops the longest all-space prefix. */
  function TrimStart(s: string): (r: string)
    ensures |r| <= |s| && r == s[|s| - |r|..]
    ensures AllSpace(s[..|s| - |r|])
    ensures r == [] || !IsSpace(r[0])
  {
    if s == [] || !IsSpace(s[0]) then s
    else
      var r := TrimStart(s[1..]);
      assert s[1..][..|s| - 1 - |r|] == s[1..|s| - |r|];
      r
  }

  /** `trimEnd`: drops the longest all-space suffix. */
  function TrimEnd(s: string): (r: string)
    ensures |r| <= |s| && r == s[..|r|]
    ensures AllSpace(s[|r|..])
    ensures r == [] || !IsSpace(r[|r| - 1])
  {
    if s == [] || !IsSpace(s[|s| - 1]) then s
    else
      var r := TrimEnd(s[..|s| - 1]);
      assert s[..|s| - 1][|r|..] == s[|r|..|s| - 1];
      r
  }

  /** `String.prototype.trim`: the result is a contiguous slice of the input
      with no space at either end, and everything cut off is space. */
  function Trim(s: string): (r: string)
    ensures Trimmed(r)
    ensures exists i, j :: 0 <= i <= j <= |s| && r == s[i..j]
                          && AllSpace(s[..i]) && AllSpace(s[j..])
  {
    var a := TrimStart(s);
    var r := TrimEnd(a);
    SliceOfSuffix(s, a, r);
    assert Trimmed(r) by {
      if r != [] {
        assert r[0] == a[0];
      }
    }
    r
  }

  /** A prefix `r` of a suffix `a` of `s` is a slice of `s`, and what
      follows it in `a` is what follows it in `s`. */
  lemma SliceOfSuffix(s: string, a: string, r: string)
    requires |a| <= |s| && a == s[|s| - |a|..]
    requires |r| <= |a| && r == a[..|r|]
    ensures r == s[|s| - |a|..|s| - |a| + |r|]
    ensures s[|s| - |a| + |r|..] == a[|r|..]
  {
  }

  /** Trimming leaves a string unchanged exactly when it has no white space
      at either end. */
  lemma TrimFixedPoint(s: string)
    ensures Trim(s) == s <==> Trimmed(s)
  {
    if Trimmed(s) && s != [] {
      assert TrimStart(s) == s;
      assert TrimEnd(s) == s;
    }
  }

  /** A string trims to the empty string exactly when it is all white space
      (the TypeScript code's `!text.trim()`). */
  lemma {:induction false} TrimEmptyIffBlank(s: string)
    ensures Trim(s) == [] <==> AllSpace(s)
  {
    if s == [] {
    } else if !IsSpace(s[0]) {
      assert TrimStart(s) == s;
      assert !AllSpace(s[0..]) by {
        assert s[0..][0] == s[0];
      }
    } else {
      TrimEmptyIffBlank(s[1..]);
      assert TrimStart(s) == TrimStart(s[1..]);
      if AllSpace(s[1..]) {
        assert forall k :: 1 <= k < |s| ==> IsSpace(s[k]) by {
          forall k | 1 <= k < |s| ensures IsSpace(s[k]) {
            assert s[1..][k - 1] == s[k];
          }
        }
      }
    }
  }

  /** One leading space, as `join(', ')` leaves before every tag but the
      first, is removed again by `trim`. */
  lemma TrimAfterSpace(t: string)
    requires Trimmed(t)
    ensures Trim([' '] + t) == t
  {
    var s := [' '] + t;
    assert s[1..] == t;
    assert TrimStart(s) == TrimStart(t);
    TrimFixedPoint(t);
    if t != [] {
      assert TrimStart(t) == t;
    }
  }

  // ---------------------------------------------------------------------------
  // toLowerCase and includes

  /** `toLowerCase` restricted to the ASCII letters. */
  function LowerChar(c: char): char {
    if 'A' <= c <= 'Z' then (c as int + 32) as char else c
  }

  function ToLower(s: string): (r: string)
    ensures |r| == |s|
    ensures forall i :: 0 <= i < |s| ==> r[i] == LowerChar(s[i])
  {
    seq(|s|, i requires 0 <= i < |s| => LowerChar(s[i]))
  }

  /** `needle` occurs in `s` starting at position `i`. */
  predicate OccursAt(s: string, needle: string, i: int) {
    0 <= i && i + |needle| <= |s| && s[i..i + |needle|] == needle
  }

  /** `String.prototype.includes`, computed by scanning prefixes; it holds
      exactly when the needle occurs at some position. */
  predicate Contains(s: string, needle: string)
    ensures Contains(s, needle) <==> exists i :: OccursAt(s, needle, i)
  {
    if needle <= s then
      assert OccursAt(s, needle, 0);
      true
    else if s == [] then
      assert forall i :: !OccursAt(s, needle, i);
      false
    else
      var rest := Contains(s[1..], needle);
      assert forall i :: OccursAt(s[1..], needle, i) <==> OccursAt(s, needle, i + 1) by {
        forall i ensures OccursAt(s[1..], needle, i) <==> OccursAt(s, needle, i + 1) {
          if 0 <= i && i + |needle| <= |s| - 1 {
            assert s[1..][i..i + |needle|] == s[i + 1..i + 1 + |needle|];
          }
        }
      }
      assert !OccursAt(s, needle, 0);
      assert forall i :: OccursAt(s, needle, i) ==> i >= 1;
      assert forall i :: OccursAt(s, needle, i) ==> OccursAt(s[1..], needle, i - 1);
      rest
  }

  /** Every string includes itself. */
  lemma ContainsSelf(s: string)
    ensures Contains(s, s)
  {
    assert OccursAt(s, s, 0);
  }

  // ---------------------------------------------------------------------------
  // split on one character, and join

  /** `Array.prototype.join(sep)`. */
  function Join(parts: seq<string>, sep: string): string {
    if |parts| == 0 then []
    else if |parts| == 1 then parts[0]
    else parts[0] + sep + Join(parts[1..], sep)
  }

  /** `String.prototype.split(c)` for a one-character separator: there is
      always one more piece than there are separators, and the pieces hold
      no separator. */
  function Split(s: string, c: char): (r: seq<string>)
    ensures |r| >= 1
    ensures forall k :: 0 <= k < |r| ==> c !in r[k]
  {
    if s == [] then [[]]
    else if s[0] == c then [[]] + Split(s[1..], c)
    else
      var rest := Split(s[1..], c);
      [[s[0]] + rest[0]] + rest[1..]
  }

  /** Joining the pieces of a split with the same separator gives back the
      string: `split` loses nothing. */
  lemma {:induction false} JoinSplit(s: string, c: char)
    ensures Join(Split(s, c), [c]) == s
  {
    if s == [] {
    } else if s[0] == c {
      JoinSplit(s[1..], c);
      var rest := Split(s[1..], c);
      assert Split(s, c) == [[]] + rest;
      assert ([[]] + rest)[1..] == rest;
    } else {
      JoinSplit(s[1..], c);
      var rest := Split(s[1..], c);
      var r := [[s[0]] + rest[0]] + rest[1..];
      assert Split(s, c) == r;
      if |rest| == 1 {
        assert Join(r, [c]) == [s[0]] + rest[0];
      } else {
        assert r[1..] == rest[1..];
        assert Join(rest, [c]) == rest[0] + [c] + Join(rest[1..], [c]);
      }
      assert s == [s[0]] + s[1..];
    }
  }

  /** How many times `c` occurs in `s`. */
  function Occurrences(s: string, c: char): (n: nat)
    ensures n == 0 <==> c !in s
    ensures n <= |s|
  {
    if s == [] then 0 else (if s[0] == c then 1 else 0) + Occurrences(s[1..], c)
  }

  /** Occurrences add up over a concatenation. */
  lemma {:induction false} OccurrencesConcat(a: string, b: string, c: char)
    ensures Occurrences(a + b, c) == Occurrences(a, c) + Occurrences(b, c)
  {
    if a == [] {
      assert a + b == b;
    } else {
      OccurrencesConcat(a[1..], b, c);
      assert (a + b)[0] == a[0];
      assert (a + b)[1..] == a[1..] + b;
    }
  }

  /** A split has one piece more than the string has separators. */
  lemma {:induction false} SplitCount(s: string, c: char)
    ensures |Split(s, c)| == 1 + Occurrences(s, c)
  {
    if s != [] {
      SplitCount(s[1..], c);
      var rest := Split(s[1..], c);
      if s[0] == c {
        assert |Split(s, c)| == 1 + |rest|;
      } else {
        assert |Split(s, c)| == |rest|;
      }
    }
  }

  /** A string without the separator splits into itself alone. */
  lemma {:induction false} SplitNoSeparator(a: string, c: char)
    requires c !in a
    ensures Split(a, c) == [a]
  {
    if a != [] {
      SplitNoSeparator(a[1..], c);
      assert [a[0]] + a[1..] == a;
    }
  }

  /** A separator-free head followed by the separator splits off as the
      first piece. */
  lemma {:induction false} SplitAfterHead(a: string, c: char, b: string)
    requires c !in a
    ensures Split(a + [c] + b, c) == [a] + Split(b, c)
  {
    if a == [] {
      assert a + [c] + b == [c] + b;
      assert ([c] + b)[1..] == b;
    } else {
      SplitAfterHead(a[1..], c, b);
      var s := a + [c] + b;
      assert s[0] == a[0];
      assert s[1..] == a[1..] + [c] + b;
      assert [a[0]] + a[1..] == a;
    }
  }

  /** Splitting a join undoes it when no part contains the separator
      character: the first part comes back as is, every later part comes
      back with whatever followed the separator character in the joiner
      (`rest`) in front of it. */
  lemma {:induction false} SplitJoin(parts: seq<string>, c: char, rest: string)
    requires |parts| >= 1
    requires c !in rest
    requires forall k :: 0 <= k < |parts| ==> c !in parts[k]
    ensures |Split(Join(parts, [c] + rest), c)| == |parts|
    ensures Split(Join(parts, [c] + rest), c)[0] == parts[0]
    ensures forall k :: 1 <= k < |parts| ==> Split(Join(parts, [c] + rest), c)[k] == rest + parts[k]
  {
    var sep := [c] + rest;
    if |parts| == 1 {
      SplitNoSeparator(parts[0], c);
    } else {
      var tail := Join(parts[1..], sep);
      SplitJoin(parts[1..], c, rest);
      var tailPieces := Split(tail, c);
      assert Join(parts, sep) == parts[0] + [c] + (rest + tail);
      SplitAfterHead(parts[0], c, rest + tail);
      assert Split(rest + tail, c) == [rest + tailPieces[0]] + tailPieces[1..] by {
        PrependPlain(rest, tail, c);
      }
      forall k | 1 <= k < |parts|
        ensures Split(Join(parts, sep), c)[k] == rest + parts[k]
      {
        if k > 1 {
          assert parts[1..][k - 1] == parts[k];
        }
      }
    }
  }

  /** Putting separator-free text in front of a string only lengthens its
      first piece. */
  lemma {:induction false} PrependPlain(a: string, b: string, c: char)
    requires c !in a
    ensures Split(a + b, c) == [a + Split(b, c)[0]] + Split(b, c)[1..]
  {
    if a != [] {
      PrependPlain(a[1..], b, c);
      assert (a + b)[0] == a[0];
      assert (a + b)[1..] == a[1..] + b;
      assert [a[0]] + (a[1..] + Split(b, c)[0]) == a + Split(b, c)[0];
    } else {
      assert a + b == b;
      assert a + Split(b, c)[0] == Split(b, c)[0];
      assert Split(b, c) == [Split(b, c)[0]] + Split(b, c)[1..];
    }
  }
}

=== FILE: types.dfy ===
/** The records shared by the portfolio's components: projects, skills and
    chat messages, plus the Option type used for the TypeScript code's optional fields
    and nullable state. */
module Types {

  /** A nullable or optional value (`T | null`, `field?: T`). */
  datatype Option<+T> = None | Some(value: T)

  /** A showcase project. `longDescription` is optional in the TypeScript code. */
  datatype Project = Project(
    id: string,
    title: string,
    description: string,
    tech: seq<string>,
    image: string,
    link: string,
    longDescription: Option<string>)

  /** The four skill categories the admin form offers. */
  datatype Category = Frontend | ThreeD | Backend | Design {
    /** The category's text as it is stored and displayed. */
    function Name(): string {
      match this
      case Frontend => "Frontend"
      case ThreeD => "3D"
      case Backend => "Backend"
      case Design => "Design"
    }
  }

  datatype Skill = Skill(name: string, level: int, category: Category)

  datatype Role = User | Model

  /** One entry of the chat log. The TypeScript code only ever sets `isError` to true
      or leaves it out, so an absent flag is modelled as `false`. */
  datatype ChatMessage = ChatMessage(role: Role, text: string, isError: bool)

  /** All ids of a project list are distinct. */
  predicate UniqueIds(ps: seq<Project>) {
    forall i, j :: 0 <= i < j < |ps| ==> ps[i].id != ps[j].id
  }

  /** Some project in the list carries the given id. */
  predicate HasId(ps: seq<Project>, id: string) {
    exists i :: 0 <= i < |ps| && ps[i].id == id
  }
}
